=== FILE: README.md ===
# Persian spoken calculator — a Dafny model of its core

The calculator keeps an expression buffer that on-screen and physical keys
edit, evaluates the buffer, and announces each key press and each result
in Persian. This project models the part of `script.js` with real logic:

- `keyToPersian`: the spoken name of a single key.
- `numberToPersianWords`: a number rendered as Persian words. This covers
  infinity and "NaN", scientific notation, a leading minus, a decimal point
  with the fraction read digit by digit, and integers split into groups of
  three digits under the scale words thousand, million, billion and trillion.
- The rewrite of `n%` into `(n/100)` that `evaluateExpression` applies
  before evaluating.
- The buffer handlers `appendValue`, `backspace`, `clearAll` and
  `evaluateExpression`. Each one produces the new buffer, the text for the
  result display, and the phrases handed to speech.

How `numberToPersianWords` is modelled:

- A string is first *read* into a structured `Reading` (`NumberWords.ReadText`).
  The reading records which branch of the function applies and which table
  words it uses.
- The reading is then *rendered* as the returned string (`NumberWords.Render`).
- Integers become `Group`s (`Scales`): each group holds the three-digit
  words of one count (`ThreeDigits.Word`) and the scale words after it.
- `Denotation.Denote` gives what a listener hears in a reading: a sign, an
  integer and the fraction digits. `Denotation.SpokenValue` proves that
  the reading of every decimal numeral whose integer part is below 10^15
  denotes exactly that numeral.
- `Denotation.HeardNumber` and `Denotation.HeardScale` hear single spoken
  words back as values. `Denotation.NumberWordHeard`,
  `Denotation.ScaleWordHeard` and `Denotation.CountHeard` prove that every
  word the tables speak is heard as the value the reading gives it.
- `Listening` hears the returned text itself. It cuts the text at its
  spaces into tokens and reads number words joined by the conjunction "و"
  as a count, the scale words after them as a magnitude, and groups joined
  by "و" as a sum. `Listening.IntegerHeard` proves that every integer below
  10^15 is heard back from its text. `Listening.CountTextHeard` proves that
  the text of a count from 1 to 999 is its table words, largest first,
  joined by " و ".

The percent rewrite has two definitions, proved equal:

- `Percent.Replace` follows the regular-expression engine: a greedy match
  of `[0-9.]+`, backtracking to a `%`, and a global left-to-right scan.
- `Percent.Rewrite` works maximal run by maximal run.

The modules, in dependency order: `Wrappers`, `Text`, `Numerals`, `Lexicon`,
`ThreeDigits`, `Arith`, `Scales`, `NumberWords`, `Spoken`, `Denotation`,
`Trillions`, `Percent`, `Buffer`.

Some behaviours of the code are easy to miss:

- A non-finite number is spoken as "بی‌نهایت" ("infinite"). This includes
  the number `NaN`, because the `isFinite` test comes first (script.js:104).
  Only the *string* "NaN" gives "نامشخص" ("unknown").
- Division by zero is not an error. The evaluator yields `Infinity`, which
  becomes the result and the buffer, and is spoken as infinite.
- A result that is not a number is not an error either. `/5/` evaluates to
  a regular expression and `1+/5/` to the string "1/5/". Such a value is
  shown and put in the buffer as its `String` form, which is spoken like
  any other text: "1/5/" is read through `parseInt` as "یک".
- A text such as ".5" has an empty integer part. `parseInt("")` is `NaN`,
  so the integer part is spoken as infinite: "بی‌نهایت ممیز پنج"
  (`Spoken.LeadingPointReadsInfinite`).
- `keyToPersian` names the minus key "منها". When a key is pressed,
  `appendValue` uses its own operator table first, which says "منهای"
  (`Lexicon.PressAnnouncement`).

## Model

| member | source | states |
|---|---|---|
| Lexicon.KeyToPersian | script.js:86-99 | a key listed in the table gives its table word, which differs from the key; any other key is echoed back unchanged |
| Lexicon.KeyTableBijective | script.js:87-97 | the key table is one-to-one: a key maps to a word exactly when that word is heard back as that key |
| Lexicon.SpokenKeyRoundTrip | script.js:86-99 | hearing the spoken name of a listed key gives the key back |
| Lexicon.KeyToPersianInjective | script.js:86-99 | two listed keys are spoken alike exactly when they are the same key |
| Lexicon.DigitWordsAgree | script.js:88-128 | the key name of digit d is the zero word for 0 and otherwise the ones-table word for d |
| Lexicon.NumberTablesPlain | script.js:125-128 | every used entry of the ones, teens, tens and hundreds tables is a non-empty word without spaces |
| Lexicon.PressAnnouncement | script.js:183-197 | a pressed key is announced by its key name, except minus, which is announced as "منهای" where the key table says "منها" |
| Lexicon.OperatorWord | script.js:187-196 | the operator table names exactly the listed keys that are not digits, each with the key table's word except minus, which it calls "منهای" |
| Numerals.ParseInt | script.js:120-121 | `parseInt` is NaN exactly when the text does not start with a digit; an all-digit text parses to its value |
| Numerals.ParseIntPrefix | script.js:117 | `parseInt` reads the maximal leading run of digits and ignores the rest |
| Numerals.DecimalString | script.js:105 | `String(n)` of a non-negative integer is a non-empty digit string without a leading zero |
| Numerals.DecimalStringValue | script.js:105 | the decimal string of n denotes n |
| Numerals.CanonicalRoundTrip | script.js:105 | a digit string without a leading zero is the decimal string of its own value |
| Text.FieldBefore | script.js:113 | `split(".")[0]`: a prefix of the text with no point, ending at the first point or at the end of the text |
| Text.FieldAfter | script.js:113-115 | `split(".")[1]`: no point in it, part 0, the point and part 1 are a prefix of the text, and part 1 ends at the end of the text or at the next point |
| Text.SplitFields | script.js:113-115 | for a text made of a, a point, b and then nothing or a point, part 0 is a and part 1 is b |
| Text.Join | script.js:149 | `join(sep)`: the parts' lengths plus one separator between each two parts, starting with the first part |
| Text.JoinUnpadded | script.js:149 | joining unpadded parts gives unpadded text that starts with the first part's first character |
| Text.TrimStart | script.js:164 | the text without its leading spaces: a suffix that does not start with a space, with only spaces before it |
| Text.Trim | script.js:164 | `trim` gives empty or unpadded text: the text without its leading spaces, cut before a tail made only of spaces |
| Text.TrimUnpadded | script.js:164 | `trim` leaves a text that neither starts nor ends with a space unchanged |
| ThreeDigits.GroupWords | script.js:136-148 | the words of a count add up to it, are in strictly descending value, are empty only for 0, and are table entries below 1000; `ThreeDigits.GroupWordsDigits` fixes each word's table index |
| ThreeDigits.GroupWordsDigits | script.js:137-148 | each word is indexed by its own digit: the hundreds word by x / 100, the teens word by x % 100 - 10, the tens word by the tens digit, the ones word by the ones digit |
| ThreeDigits.GroupHundreds | script.js:138-140 | a hundreds word is present exactly when x >= 100 |
| ThreeDigits.GroupTeens | script.js:141-142 | last two digits 10-19 give exactly one teens word and no tens or ones word |
| ThreeDigits.GroupTensOnes | script.js:143-147 | otherwise there is no teens word; a tens word is present exactly when the tens digit is non-zero, a ones word exactly when the ones digit is non-zero |
| ThreeDigits.WordsTextUnpadded | script.js:149 | table words joined by " و " give non-empty text with no leading or trailing space |
| ThreeDigits.ThreeDigitsText | script.js:136-150 | the text for 1..999 is non-empty and unpadded; for 0 it is empty; `Listening.CountTextHeard` fixes its words, their order and the " و " between them |
| Scales.GroupsFrom | script.js:152-163 | the groups the scale loop builds add up to the number |
| Scales.ScaleStep | script.js:155-158 | one step of the loop: the group's count times the scale plus the new remainder is the old remainder |
| Scales.ScaleWordsOnceInOrder | script.js:129-160 | the groups are in strictly descending scale, and no scale occurs twice |
| Scales.GroupsFromSpeakable | script.js:154-162 | below 1000 of the current scale, every group's count is 1..999 and so is spoken from the tables |
| Scales.GroupsFromDigits | script.js:152-163 | the loop's groups are exactly one group per non-zero base-1000 digit, in descending order |
| Scales.GroupsSpeakDigits | script.js:152-163 | below 10^15, a scale word is spoken exactly when that base-1000 digit is non-zero, and its count is that digit |
| Scales.SplitIntoGroups | script.js:152-163 | the loop as a method: it leaves remainder n mod 1000, and its groups plus a final group only for a non-zero remainder are the number's groups |
| Scales.GroupTextUnpadded | script.js:158 | a speakable group's text is unpadded and does not start like the zero word |
| Scales.GroupsTextUntrimmed | script.js:164 | for speakable groups the final `trim` changes nothing, and the text is never the zero word |
| Scales.CorrectedGroups | script.js:152-163 | corrected groups add up to the number and are all speakable, for every size of number |
| Scales.CorrectedBelowLimit | script.js:152-163 | below 10^15 the corrected groups are the loop's groups as written |
| NumberWords.ReadText | script.js:102-123 | which branch a text takes: a grouped reading has at least one group and every group is speakable, a negative reading comes only from a leading "-", a decimal reading only from a text with a point |
| NumberWords.FractionWords | script.js:117 | one word per fraction character, the key name of that character |
| NumberWords.NumberToWords | script.js:104-107 | a non-finite number gives the infinite word, the string "NaN" the unknown word, and a text containing "e" is echoed back |
| NumberWords.AsWrittenIntegerWords | script.js:120-164 | the integer path as written for integers below 2^53; below 10^15 it equals the model's integer words |
| Spoken.NegativeSpoken | script.js:110 | a leading "-" gives the negative word, a space, then the words of the rest |
| Spoken.DecimalSpoken | script.js:112-118 | a text with a point gives the integer part's words, " ممیز ", then one key word per fraction character joined by spaces |
| Spoken.WholeSpoken | script.js:117 | the integer part before the point is spoken as infinite when `parseInt` gives NaN, and as its integer words otherwise |
| Spoken.LeadingPointReadsInfinite | script.js:112-117 | ".f" has an empty integer part and is spoken as infinite, point, then the fraction digits |
| Spoken.DigitsReading | script.js:120-123 | an all-digit text below 10^15 reads as the integer it denotes |
| Spoken.ZeroSpoken | script.js:123 | any all-zero digit text is spoken as the single zero word |
| Spoken.IntegerWordsShape | script.js:123-164 | an integer's words are the zero word exactly for 0; otherwise they are unpadded and are the group texts joined by " و " |
| Spoken.IntegerTextReading | script.js:105-164 | the decimal string of n is spoken as n's integer words |
| Denotation.IntegerReadingDenotes | script.js:123-164 | the words of an integer denote that integer |
| Denotation.FractionHeard | script.js:117 | the digit-by-digit fraction words are heard back as the fraction digits |
| Denotation.DecimalDenotes | script.js:112-118 | integer words, the point word and digit words denote the integer with that fraction |
| Denotation.NegationDenotes | script.js:110 | the negative word flips the sign of what the rest denotes |
| Denotation.UnsignedSpoken | script.js:112-164 | the reading of an unsigned numeral's text denotes it |
| Denotation.NegatedSpoken | script.js:110 | the reading of a negative numeral's text denotes it |
| Denotation.SpokenValue | script.js:102-165 | the reading of every decimal numeral below 10^15 denotes exactly its sign, integer value and fraction digits |
| Denotation.NumberWordHeard | script.js:125-128 | every table word a count is spoken with is heard back as its value |
| Denotation.ScaleWordHeard | script.js:129-134 | every scale word is heard back as its scale value |
| Denotation.WordsHeard | script.js:136-149 | the table words of a count are heard back as the sum of their values |
| Denotation.ScalesHeard | script.js:129-158 | the scale words after a group are heard back as the product of their values |
| Denotation.ScaleWordsNames | script.js:158 | the scale text spoken after a group's count is the scale names the listener hears, joined by spaces and after one space |
| Denotation.GroupHeard | script.js:158 | a speakable group's words are heard back as its count and its scale, whose product is the group's value |
| Denotation.CountHeard | script.js:136-150 | the words chosen for 1..999 are heard back as the count itself |
| Text.SplitJoin | script.js:164 | parts joined by a character they do not hold are cut back at that character into the same parts |
| Text.JoinAppend | script.js:164 | joining two non-empty lists of parts puts exactly one separator between the two joins |
| Text.JoinInterleave | script.js:149 | joining by a word with a space on each side gives the parts with that word between each two, separated by single spaces |
| Listening.GroupTextTokens | script.js:149-158 | a speakable group's text is its count words with "و" between each two and then its scale words, separated by single spaces |
| Listening.GroupsTextSplit | script.js:149-164 | the text of speakable groups joined by " و ", cut at its spaces, is exactly the groups' tokens in order |
| Listening.InterleaveHeard | script.js:149 | number words with "و" between each two are heard as their values in order, leaving what follows |
| Listening.CountTokensHeard | script.js:136-149 | a count's table words joined by "و" are heard as the words' values, in the order they are spoken |
| Listening.ScaleTokensHeard | script.js:158 | the scale words after a count are heard as the product of their scales, leaving what follows |
| Listening.GroupHeardBefore | script.js:158-164 | a speakable group's tokens are heard as the group's value, leaving nothing or, after a scale word, the "و" before the next group |
| Listening.JoinedHeard | script.js:164 | chunks each heard as one group, joined by "و", are heard as the sum of the chunks' values |
| Listening.GroupsTokensHeard | script.js:152-164 | the loop's groups, joined by "و", are heard back as the sum of their values |
| Listening.ScaledBeforeLast | script.js:154-162 | in the loop's descending groups every group but the last carries a scale word; only the final remainder has none |
| Listening.IntegerHeard | script.js:123-164 | the text spoken for every integer below 10^15, cut at its spaces, is heard back as that integer |
| Listening.CountTextHeard | script.js:136-150 | the text for 1..999, cut at its spaces, is its table words with "و" between each two, hundreds first, in strictly descending value, adding up to the count, with nothing left over |
| Trillions.TrillionCountOverflow | script.js:154-164 | as written, 10^15 is spoken as the bare trillion word, and 2·10^15 is spoken the same way |
| Trillions.CorrectedTrillionCount | script.js:154-164 | corrected, 10^15 is "one thousand trillion" and 2·10^15 is "two thousand trillion" |
| Trillions.CorrectedThousandTrillionWords | script.js:154-164 | corrected, d·10^15 for d in 1..9 is the ones word for d, the thousand word, then the trillion word |
| Percent.Replace | script.js:221 | the rewrite never shortens a text, and keeps its first character unless a class run starts there and a match turns it into "(" |
| Percent.Run | script.js:221 | the greedy `[0-9.]+` match is a prefix made of class characters and stops at the first character outside the class |
| Percent.MatchAt | script.js:221 | a match found at a position is a class run followed by `%` |
| Percent.MatchAtPattern | script.js:221 | the engine matches at a position exactly when some class run followed by `%` starts there, and the match ends at the greedy run |
| Percent.ReplaceIsRewrite | script.js:221 | the regex scan equals the run-by-run rewrite on every text |
| Percent.RunReplaced | script.js:221 | a run of digits and points followed by `%` becomes "(" + run + "/100)" and the scan continues after the `%` |
| Percent.RunKept | script.js:221 | a run not followed by `%` is kept as it is |
| Percent.EveryRunReplaced | script.js:221 | after any prefix that ends outside the class, a run followed by `%` is replaced wherever it occurs |
| Percent.ReplaceSplit | script.js:221 | the rewrite distributes over a split after a non-class character |
| Percent.NoPercentUnchanged | script.js:221 | text with no `%` is unchanged |
| Percent.FixedPoints | script.js:221 | the rewrite leaves a text unchanged exactly when no `%` follows a digit or point |
| Percent.ReplaceLength | script.js:221 | the rewrite lengthens the text by 5 per `%` that follows a digit or point |
| Percent.RewriteClean | script.js:221 | the rewritten text has no `%` right after a digit or point |
| Percent.ReplaceIdempotent | script.js:221 | rewriting twice is the same as rewriting once |
| Percent.HalfOfTwo | script.js:221 | "50%*2" becomes "(50/100)*2" |
| Buffer.Append | script.js:179-199 | the buffer grows by the key at its end, the result display is untouched, and the key's announcement is spoken |
| Buffer.Backspace | script.js:208-215 | the last character is dropped and "deleted" is spoken; an empty buffer stays empty and nothing is spoken |
| Buffer.Clear | script.js:201-206 | the buffer is emptied, the display shows "0", and the zero word is spoken before "cleared" |
| Buffer.Evaluate | script.js:217-237 | an empty buffer changes nothing; an exception shows and speaks the error and keeps the buffer; a value becomes the result and the buffer and is spoken as words |
| Buffer.NonNumberResult | script.js:217-231 | a value that is not a number takes the ordinary path: when `1+/5/` evaluates to the string "1/5/", that string becomes the result and the buffer and is spoken "یک" |
| Buffer.ErrorTextEchoed | script.js:230-234 | the error text is not a number, so passing it to the speaking function echoes it unchanged |
| Buffer.BackspaceUndoesAppend | script.js:179-215 | backspace right after appending one key gives the buffer back |
| Buffer.BackspacesUndoAppend | script.js:179-215 | appending a text and then pressing backspace once per character gives the buffer back |
| Buffer.EvaluateSeesRewrite | script.js:220-223 | the evaluator sees only the percent-rewritten text |
| Buffer.EvaluatePlain | script.js:217-231 | an expression without `%` goes to the evaluator unchanged |

## Findings

| source | as written | input that shows it | evidently intended | confidence | as-written member | corrected member |
|---|---|---|---|---|---|---|
| script.js:154-158 | the trillion count `floor(n / 1e12)` can reach 1000 or more, and `threeDigitsToWords` then indexes `hundreds[10]`, `hundreds[20]` and so on, which are undefined and join as "" | 10^15 and 2·10^15: both are spoken as the bare word "تریلیون" | the trillion count read as a number in its own right: "یک هزار تریلیون", "دو هزار تریلیون" | not executed | Trillions.TrillionCountOverflow | Trillions.CorrectedTrillionCount |

The as-written loop is `Scales.GroupsFrom` (through `Scales.Groups` and
`NumberWords.AsWrittenIntegerWords`). The corrected definition is
`Scales.CorrectedGroups`, which `NumberWords.IntegerReading` uses. It
equals the loop below 10^15 (`Scales.CorrectedBelowLimit`), and it adds up
to the number and keeps every count within the tables for every size
(`Scales.CorrectedGroups`).

## Left out

- Speech: voice selection, queuing and playback (script.js:12-83). The
  model returns the phrases handed to `speak`, in order.
- The page: DOM updates and button and keyboard wiring (script.js:168-177,
  239-261). `setExpression` showing "0" for an empty buffer is display only.
- Evaluation by `Function(...)`: it is a parameter, `eval: string -> Outcome`.
  An outcome is an exception, or a value given by its `String` form and
  whether it is a finite number or not a number at all.
- The rounding of a numeric result to twelve decimal places
  (script.js:228): floating point. Its result enters as the outcome's text.
- Buffer.Evaluate: a value that is not a number (a regular expression,
  a string) has no case of its own. It enters as `Value(String(v), true)`,
  which takes the same path. The precondition excludes values whose text
  is outside `NumberWords.Modelled`, such as integer parts of 10^15 and
  above.
- Numerals.ParseInt: the value is the exact integer, where JavaScript
  rounds `parseInt`'s result to the nearest double. The two agree below
  2^53, which covers every integer the model speaks (below 10^15).
- Numerals.ParseIntPrefix: the same exact-integer reading as
  `Numerals.ParseInt`; above 2^53 the source's result is a rounded double.
- NumberWords.NumberToWords: `null` and `undefined` (script.js:103) are
  not arguments of the model. No handler passes them.
- NumberWords.NumberToWords: number-to-string conversion is left out. A
  finite number enters as the text `String(num)` would produce.
- NumberWords.Modelled: the model does not cover `parseInt` of text that
  starts with white space or a sign, because no path of the calculator
  produces one. It also leaves out integer parts of 10^15 and above, except
  where `AsWrittenIntegerWords` and the finding cover them.
- Lexicon.KeyToPersian: keys that name inherited object properties
  (`"toString"`, `"constructor"`, and so on) are excluded. For those, the
  JavaScript lookup returns a function, not a word.
- Text.Trim: it strips only U+0020. That is the only white space the
  function can produce around its words.
- Strings are sequences of Dafny characters, not UTF-16 code units.
- This script has no English variant and no trigonometric, power or
  logarithm keys.

=== FILE: arith.dfy ===
/** Facts about Euclidean division on naturals that the scale loop relies
    on: a quotient and remainder are determined by the division equation,
    and taking a remainder by a multiple keeps the smaller digits. */
module Arith {

  lemma MulAtLeast(x: int, b: int)
    requires x >= 1 && b > 0
    ensures x * b >= b
  {
  }

  /** `n == q * b + r` with `0 <= r < b` fixes `n / b` and `n % b`. */
  lemma DivUnique(n: int, b: int, q: int, r: int)
    requires b > 0 && 0 <= r < b && n == q * b + r
    ensures n / b == q && n % b == r
  {
    var q' := n / b;
    var r' := n % b;
    assert n == q' * b + r';
    assert (q - q') * b == r' - r;
    if q > q' {
      MulAtLeast(q - q', b);
    } else if q < q' {
      MulAtLeast(q' - q, b);
    }
  }

  /** Dividing the remainder by `c * b` by `b` gives the quotient by `b`
      taken modulo `c`. */
  lemma ModDiv(n: nat, b: nat, c: nat)
    requires b > 0 && c > 0
    ensures n % (c * b) / b == n / b % c
  {
    var q := n / (c * b);
    var r := n % (c * b);
    var r1 := r / b;
    var r2 := r % b;
    assert n == (q * c + r1) * b + r2 by {
      assert n == q * (c * b) + r;
      assert r == r1 * b + r2;
    }
    assert r1 < c by {
      if r1 >= c {
        MulAtLeast(r1 - c + 1, b);
      }
    }
    DivUnique(n, b, q * c + r1, r2);
    DivUnique(q * c + r1, c, q, r1);
  }

  /** A remainder by a multiple of `k`, taken again modulo `k`, is the
      remainder by `k`. */
  lemma ModMod(x: nat, c: nat, k: nat)
    requires k > 0 && c > 0 && c % k == 0
    ensures x % c % k == x % k
  {
    var q := x / c;
    var r := x % c;
    var m := c / k;
    assert c == m * k;
    assert x == (q * m) * k + r by {
      assert x == q * c + r;
    }
    var r1 := r / k;
    var r2 := r % k;
    assert x == (q * m + r1) * k + r2;
    DivUnique(x, k, q * m + r1, r2);
  }
}

=== FILE: buffer.dfy ===
/** The expression buffer and the handlers that edit it (script.js:179-237):
    `appendValue`, `backspace`, `clearAll` and `evaluateExpression`. The
    page itself is not modelled; a handler yields the new buffer, the text
    handed to the result display and the texts handed to speech, in order. */
module Buffer {
  import opened Wrappers
  import opened Text
  import opened Numerals
  import opened Lexicon
  import opened ThreeDigits
  import opened Scales
  import opened NumberWords
  import opened Trillions
  import opened Spoken
  import opened Percent

  /** What one handler leaves behind: the expression buffer, the text put
      on the result display (`None` when the display is left alone), and
      what is spoken. */
  datatype Step = Step(expression: string, result: Option<string>, spoken: seq<string>)

  const Deleted: string := "حذف شد"
  const Cleared: string := "پاک شد"
  const ErrorText: string := "خطا"
  const ErrorSpoken: string := "خطا در محاسبه"

  /** What the evaluator gives back for the rewritten expression: an
      exception, or a value as its `String` form (after rounding when it is
      a number) and whether it is a finite number or not a number at all.
      A value that is not a number (the regular expression `/5/`, or the
      string `"1/5/"` that `1+/5/` gives) skips only the rounding and the
      non-finite test, so it enters as `Value(String(v), true)`. The
      evaluator itself is a parameter. */
  datatype Outcome = Threw | Value(text: string, finite: bool)

  /** The numbers the model speaks: a finite value's text must be one
      `NumberToWords` reads as the source does. */
  predicate OutcomeModelled(o: Outcome)
  {
    o.Value? && o.finite ==> Modelled(o.text)
  }

  /** What `numberToPersianWords` receives for an evaluated number. */
  function OutcomeArgument(o: Outcome): Argument
    requires o.Value?
  {
    if o.finite then Str(o.text) else NonFinite
  }

  /** `appendValue(val)`: the key goes on the end of the buffer and its
      name is spoken; the result display is left alone. */
  function Append(expression: string, key: string): (s: Step)
    requires !Inherited(key)
    ensures |s.expression| == |expression| + |key|
    ensures s.expression[..|expression|] == expression && s.expression[|expression|..] == key
    ensures s.result == None
    ensures s.spoken == [PressAnnouncement(key)]
  {
    Step(expression + key, None, [PressAnnouncement(key)])
  }

  /** `backspace()`: the last character goes; "deleted" is spoken only when
      there was one. An empty buffer stays empty and nothing is spoken. */
  function Backspace(expression: string): (s: Step)
    ensures |expression| == 0 ==> s == Step("", None, [])
    ensures |expression| > 0 ==> s.expression + [expression[|expression| - 1]] == expression
    ensures |expression| > 0 ==> s.spoken == [Deleted]
    ensures s.result == None
  {
    if |expression| == 0 then Step("", None, [])
    else Step(expression[..|expression| - 1], None, [Deleted])
  }

  /** `clearAll()`: an empty buffer, the result display reset to "0", whose
      zero word is spoken before "cleared". */
  function Clear(): (s: Step)
    ensures s.expression == "" && s.result == Some("0")
    ensures s.spoken == [ZeroWord, Cleared]
  {
    assert NumberToWords(Str("0")) == ZeroWord by {
      assert DigitsValue("0") == 0;
      ZeroSpoken("0");
    }
    Step("", Some("0"), [NumberToWords(Str("0")), Cleared])
  }

  /** `evaluateExpression()`: nothing at all on an empty buffer; otherwise
      the evaluator sees the percent-rewritten text. A number becomes both
      the result and the new buffer, and is spoken as words; an exception
      puts the error text on the display, speaks it and the error message,
      and keeps the buffer. */
  function Evaluate(expression: string, eval: string -> Outcome): (s: Step)
    requires expression != "" ==> OutcomeModelled(eval(Replace(expression)))
    ensures expression == "" ==> s == Step("", None, [])
    ensures expression != "" && eval(Replace(expression)).Threw? ==>
      s == Step(expression, Some(ErrorText), [ErrorText, ErrorSpoken])
    ensures expression != "" && eval(Replace(expression)).Value? ==>
      var o := eval(Replace(expression));
      && s.expression == o.text && s.result == Some(o.text)
      && (o.finite ==> s.spoken == [NumberToWords(Str(o.text))])
      && (!o.finite ==> s.spoken == [InfiniteWord])
  {
    if expression == "" then Step(expression, None, [])
    else
      var o := eval(Replace(expression));
      match o
      case Threw =>
        assert NumberToWords(Str(ErrorText)) == ErrorText by { ErrorTextEchoed(); }
        Step(expression, Some(ErrorText), [NumberToWords(Str(ErrorText)), ErrorSpoken])
      case Value(text, _) =>
        Step(text, Some(text), [NumberToWords(OutcomeArgument(o))])
  }

  /** The error text starts with a letter, so `parseInt` gives `NaN` and
      `numberToPersianWords` hands it back unchanged. */
  lemma ErrorTextEchoed()
    ensures Modelled(ErrorText)
    ensures NumberToWords(Str(ErrorText)) == ErrorText
  {
    var s := ErrorText;
    assert s[0] == 'خ' && !IsDigit(s[0]) && !IsSpaceOrSign(s[0]);
    assert 'e' !in s && '.' !in s && s != "NaN";
    assert ParseInt(s) == None;
    assert ReadText(s) == Verbatim(s);
  }

  /** A value that is not a number takes the ordinary path: `1+/5/`
      evaluates to the string "1/5/", which becomes the result and the
      buffer, and `parseInt` reads its leading "1", so it is spoken "یک". */
  lemma NonNumberResult(eval: string -> Outcome)
    requires eval(Replace("1+/5/")) == Value("1/5/", true)
    ensures OutcomeModelled(eval(Replace("1+/5/")))
    ensures Evaluate("1+/5/", eval) == Step("1/5/", Some("1/5/"), ["یک"])
  {
    SlashTextSpoken();
    var o := eval(Replace("1+/5/"));
    assert NumberToWords(OutcomeArgument(o)) == "یک";
  }

  /** The text "1/5/" is not "NaN", has no `e`, sign or point, and
      `parseInt` reads its leading "1". */
  lemma SlashTextSpoken()
    ensures Modelled("1/5/")
    ensures NumberToWords(Str("1/5/")) == "یک"
  {
    SlashTextReading();
    OneSpoken();
  }

  lemma SlashTextReading()
    ensures Modelled("1/5/")
    ensures ReadText("1/5/") == IntegerReading(1)
  {
    var s := "1/5/";
    assert 'e' !in s && '.' !in s && s != "NaN" && s[0] != '-';
    assert FieldBefore(s, '.') == s;
    ParseIntPrefix(s, "1");
  }

  /** One is a single group holding the ones word and no scale. */
  lemma OneSpoken()
    ensures IntegerWords(1) == "یک"
  {
    OneGroups();
    CorrectedBelowLimit(1);
    OneText();
    assert IntegerReading(1) == Grouped([Group([Ones(1)], [])]);
  }

  lemma OneGroups()
    ensures Groups(1) == [Group([Ones(1)], [])]
  {
    OneDigitWords(1);
    var g := Group([Ones(1)], []);
    assert GroupsFrom(1, 4) == [g];
    assert GroupsFrom(1, 3) == GroupsFrom(1, 4);
    assert GroupsFrom(1, 2) == GroupsFrom(1, 3);
    assert GroupsFrom(1, 1) == GroupsFrom(1, 2);
  }

  lemma OneText()
    ensures GroupsText([Group([Ones(1)], [])]) == "یک"
  {
    var g := Group([Ones(1)], []);
    assert GroupText(g) == "یک" by {
      assert SpellAll([Ones(1)]) == ["یک"];
      assert ScaleWords([]) == "";
    }
    GroupTextsAt([g]);
    assert Join(GroupTexts([g]), And) == "یک";
    TrimUnpadded("یک");
  }

  /** Backspace takes back the key just appended. */
  lemma BackspaceUndoesAppend(expression: string, c: char)
    requires !Inherited([c])
    ensures Backspace(Append(expression, [c]).expression).expression == expression
  {
    var e := Append(expression, [c]).expression;
    assert e == expression + [c];
  }

  /** Appending text, then pressing backspace as many times as the text
      is long, gives the buffer back. */
  lemma {:induction false} BackspacesUndoAppend(expression: string, typed: string)
    ensures Backspaces(expression + typed, |typed|) == expression
    decreases |typed|
  {
    if |typed| == 0 {
      assert expression + typed == expression;
    } else {
      var shorter := typed[..|typed| - 1];
      assert Backspace(expression + typed).expression == expression + shorter by {
        assert (expression + typed)[..|expression + typed| - 1] == expression + shorter;
      }
      BackspacesUndoAppend(expression, shorter);
    }
  }

  /** The buffer after `n` presses of backspace. */
  function Backspaces(expression: string, n: nat): string
    decreases n
  {
    if n == 0 then expression else Backspaces(Backspace(expression).expression, n - 1)
  }

  /** What the evaluator is asked depends only on the rewritten text: two
      evaluators that agree on it give the same step. */
  lemma EvaluateSeesRewrite(expression: string, f: string -> Outcome, g: string -> Outcome)
    requires f(Replace(expression)) == g(Replace(expression))
    requires expression != "" ==> OutcomeModelled(f(Replace(expression)))
    ensures Evaluate(expression, f) == Evaluate(expression, g)
  {
  }

  /** An expression without `%` goes to the evaluator as it is. */
  lemma EvaluatePlain(expression: string, eval: string -> Outcome)
    requires '%' !in expression
    requires expression != "" ==> OutcomeModelled(eval(expression))
    ensures expression != "" ==> OutcomeModelled(eval(Replace(expression)))
    ensures expression != "" && eval(expression).Value? ==>
      Evaluate(expression, eval).expression == eval(expression).text
    ensures expression != "" && eval(expression).Threw? ==>
      Evaluate(expression, eval).expression == expression
  {
    NoPercentUnchanged(expression);
  }
}

=== FILE: denotation.dfy ===
/** What a listener hears in a reading: the number its words denote. The
    reading of every decimal numeral denotes its value; the text itself is
    heard back in `Listening`. */
module Denotation {
  import opened Wrappers
  import opened Text
  import opened Numerals
  import opened Lexicon
  import opened ThreeDigits
  import opened Scales
  import opened NumberWords
  import opened Spoken

  /** The keys a listener hears in a sequence of key words, when every
      word is a key word. */
  function HeardKeys(ws: seq<string>): Option<string>
    decreases |ws|
  {
    if |ws| == 0 then Some("")
    else match (SpokenKey(ws[0]), HeardKeys(ws[1..]))
      case (Some(k), Some(rest)) => Some(k + rest)
      case _ => None
  }

  /** What a listener takes from the words: a sign, the integer the group
      and scale words add up to, and the fraction digits if a point was
      spoken. */
  datatype Heard = Heard(negative: bool, whole: nat, fraction: Option<string>)

  /** The number a listener hears in a reading, if any. The infinite,
      unknown and verbatim readings denote no number; neither does a point
      after anything but a plain integer, nor fraction words that are not
      digit words. */
  function Denote(r: Reading): Option<Heard>
  {
    match r
    case Negative(m) =>
      (match Denote(m)
       case Some(h) => Some(h.(negative := !h.negative))
       case None => None)
    case Decimal(w, ws) =>
      (match (Denote(w), HeardKeys(ws))
       case (Some(h), Some(ds)) =>
         if !h.negative && h.fraction.None? && AllDigits(ds) then Some(Heard(false, h.whole, Some(ds))) else None
       case _ => None)
    case Zero => Some(Heard(false, 0, None))
    case Grouped(gs) => Some(Heard(false, GroupsValue(gs), None))
    case _ => None
  }

  /** A decimal numeral as finite numbers are written: an optional minus
      sign, the digits of the integer part (leading zeros allowed), and
      optionally a point followed by the fraction digits. */
  datatype Numeral = Numeral(negative: bool, whole: string, fraction: Option<string>)
  {
    /** The integer part is non-empty and below 10^15; every character is
        a digit. */
    predicate Valid()
    {
      && |whole| > 0 && AllDigits(whole) && DigitsValue(whole) < Limit
      && (fraction.Some? ==> AllDigits(fraction.value))
    }

    function Text(): string
    {
      (if negative then "-" else "")
      + whole
      + (match fraction case Some(f) => "." + f case None => "")
    }

    /** What a listener should hear: the sign, the integer part's value and
        the fraction digits as written. */
    function Meaning(): Heard
      requires Valid()
    {
      Heard(negative, DigitsValue(whole), fraction)
    }
  }

  /** The reading of an integer denotes it. */
  lemma IntegerReadingDenotes(n: nat)
    ensures Denote(IntegerReading(n)) == Some(Heard(false, n, None))
  {
  }
  /** Hearing the words of a digit fraction back gives its digits. */
  lemma {:induction false} FractionHeard(f: string)
    requires AllDigits(f)
    ensures HeardKeys(FractionWords(f)) == Some(f)
    decreases |f|
  {
    if |f| > 0 {
      var ws := FractionWords(f);
      DigitKeyListed(f[0]);
      SpokenKeyRoundTrip([f[0]]);
      assert ws[1..] == FractionWords(f[1..]);
      FractionHeard(f[1..]);
      assert [f[0]] + f[1..] == f;
    }
  }

  /** The text of an integer part and a fraction: the point is the first
      one, and the text takes none of the branches before the point. */
  lemma PointTextFields(ds: string, f: string)
    requires |ds| > 0 && AllDigits(ds) && AllDigits(f)
    ensures var t := ds + "." + f;
      && '.' in t && IndexOf(t, '.') == |ds|
      && FieldBefore(t, '.') == ds && FieldAfter(t, '.') == f
      && t != "NaN" && 'e' !in t && t[0] != '-'
  {
    var t := ds + "." + f;
    assert t[..|ds|] == ds && t[|ds|] == '.' && t[|ds| + 1..] == f;
    assert '.' !in ds && '.' !in f;
    assert IndexOf(t, '.') == |ds|;
    assert forall k :: 0 <= k < |t| ==> t[k] == '.' || IsDigit(t[k]) by {
      forall k | 0 <= k < |t|
        ensures t[k] == '.' || IsDigit(t[k])
      {
        if k < |ds| {
          assert t[k] == ds[k];
        } else if k > |ds| {
          assert t[k] == f[k - |ds| - 1];
        }
      }
    }
    assert t[0] == ds[0];
  }

  /** An integer part and a fraction are read as the integer in scale groups
      and the fraction digit by digit. */
  lemma PointNumeralReading(ds: string, f: string)
    requires |ds| > 0 && AllDigits(ds) && DigitsValue(ds) < Limit && AllDigits(f)
    ensures Modelled(ds + "." + f)
    ensures ReadText(ds + "." + f) == Decimal(IntegerReading(DigitsValue(ds)), FractionWords(f))
  {
    var t := ds + "." + f;
    PointTextFields(ds, f);
    DigitsParsed(ds);
    DecimalReading(t);
  }

  /** An integer part and a digit fraction, read as a decimal, denote the
      integer with those fraction digits. */
  lemma DecimalDenotes(n: nat, f: string)
    requires AllDigits(f)
    ensures Denote(Decimal(IntegerReading(n), FractionWords(f))) == Some(Heard(false, n, Some(f)))
  {
    IntegerReadingDenotes(n);
    FractionHeard(f);
  }

  /** What is spoken for an unsigned numeral denotes its value. */
  lemma UnsignedSpoken(x: Numeral)
    requires x.Valid() && !x.negative
    ensures Modelled(x.Text())
    ensures Denote(ReadText(x.Text())) == Some(x.Meaning())
  {
    match x.fraction
    case Some(f) =>
      assert x.Text() == x.whole + "." + f;
      PointNumeralReading(x.whole, f);
      DecimalDenotes(DigitsValue(x.whole), f);
    case None =>
      assert x.Text() == x.whole;
      DigitsReading(x.whole);
      IntegerReadingDenotes(DigitsValue(x.whole));
  }

  /** An unsigned numeral's text holds no `e` and is not "NaN". */
  lemma TextShape(x: Numeral)
    requires x.Valid() && !x.negative
    ensures 'e' !in x.Text() && x.Text() != "NaN"
  {
    match x.fraction
    case Some(f) =>
      assert x.Text() == x.whole + "." + f;
      PointTextFields(x.whole, f);
    case None =>
      assert x.Text() == x.whole;
      DigitsOnly(x.whole);
  }

  /** A leading minus sign flips the sign heard in the rest of the text. */
  lemma NegationDenotes(s: string, h: Heard)
    requires Modelled(s) && s != "NaN" && 'e' !in s && |s| > 0 && s[0] == '-'
    requires Modelled(s[1..]) && Denote(ReadText(s[1..])) == Some(h)
    ensures Denote(ReadText(s)) == Some(h.(negative := !h.negative))
  {
    NegativeReading(s);
  }

  /** A minus sign in front of an unsigned numeral flips the sign heard. */
  lemma NegatedSpoken(x: Numeral)
    requires x.Valid() && x.negative
    ensures Modelled(x.Text())
    ensures Denote(ReadText(x.Text())) == Some(x.Meaning())
  {
    var m := x.(negative := false);
    var s := x.Text();
    assert s == "-" + m.Text() && s[1..] == m.Text();
    assert Modelled(m.Text()) && Denote(ReadText(m.Text())) == Some(m.Meaning()) by {
      UnsignedSpoken(m);
    }
    assert 'e' !in s && s != "NaN" by {
      TextShape(m);
    }
    assert Modelled(s);
    NegationDenotes(s, m.Meaning());
  }

  /** What is spoken for a decimal numeral is heard back as the numeral:
      the sign, the integer part's value through the scale groups, and the
      fraction digits through the key lexicon. */
  lemma SpokenValue(x: Numeral)
    requires x.Valid()
    ensures Modelled(x.Text())
    ensures Denote(ReadText(x.Text())) == Some(x.Meaning())
  {
    if x.negative {
      NegatedSpoken(x);
    } else {
      UnsignedSpoken(x);
    }
  }

  /** The number a listener hears in one word of the number tables, listed
      by value, independently of the tables the reader spells from. "ده" is
      both the first teens entry and the first tens entry; both mean ten. */
  function HeardNumber(w: string): Option<nat>
  {
    match w
    case "یک" => Some(1)      case "دو" => Some(2)       case "سه" => Some(3)
    case "چهار" => Some(4)    case "پنج" => Some(5)      case "شش" => Some(6)
    case "هفت" => Some(7)     case "هشت" => Some(8)      case "نه" => Some(9)
    case "ده" => Some(10)     case "یازده" => Some(11)   case "دوازده" => Some(12)
    case "سیزده" => Some(13)  case "چهارده" => Some(14)  case "پانزده" => Some(15)
    case "شانزده" => Some(16) case "هفده" => Some(17)    case "هجده" => Some(18)
    case "نوزده" => Some(19)  case "بیست" => Some(20)    case "سی" => Some(30)
    case "چهل" => Some(40)    case "پنجاه" => Some(50)   case "شصت" => Some(60)
    case "هفتاد" => Some(70)  case "هشتاد" => Some(80)   case "نود" => Some(90)
    case "یکصد" => Some(100)  case "دویست" => Some(200)  case "سیصد" => Some(300)
    case "چهارصد" => Some(400) case "پانصد" => Some(500) case "ششصد" => Some(600)
    case "هفتصد" => Some(700) case "هشتصد" => Some(800)  case "نهصد" => Some(900)
    case _ => None
  }

  /** The magnitude a listener hears in a scale word. */
  function HeardScale(w: string): Option<nat>
  {
    match w
    case "هزار" => Some(1_000)
    case "میلیون" => Some(1_000_000)
    case "میلیارد" => Some(1_000_000_000)
    case "تریلیون" => Some(1_000_000_000_000)
    case _ => None
  }

  /** The count a listener adds up from the words of a group. */
  function HeardSum(ws: seq<string>): Option<nat>
    decreases |ws|
  {
    if |ws| == 0 then Some(0)
    else match (HeardNumber(ws[0]), HeardSum(ws[1..]))
      case (Some(v), Some(rest)) => Some(v + rest)
      case _ => None
  }

  /** The magnitude a listener multiplies up from a group's scale words. */
  function HeardUnit(ws: seq<string>): Option<nat>
    decreases |ws|
  {
    if |ws| == 0 then Some(1)
    else match (HeardScale(ws[0]), HeardUnit(ws[1..]))
      case (Some(v), Some(rest)) => Some(v * rest)
      case _ => None
  }

  /** The scale words of a list of scales, in order. */
  function ScaleNames(ss: seq<Scale>): (ws: seq<string>)
    ensures |ws| == |ss|
    ensures forall k :: 0 <= k < |ss| ==> ws[k] == ss[k].Word()
    decreases |ss|
  {
    if |ss| == 0 then [] else [ss[0].Word()] + ScaleNames(ss[1..])
  }

  /** The spoken scale text of a group is the names the listener hears,
      each after a space. */
  lemma {:induction false} ScaleWordsNames(ss: seq<Scale>)
    ensures |ss| == 0 ==> ScaleWords(ss) == ""
    ensures |ss| > 0 ==> ScaleWords(ss) == " " + Join(ScaleNames(ss), " ")
    decreases |ss|
  {
    if |ss| > 1 {
      ScaleWordsNames(ss[1..]);
      ScaleWordsCons(ss);
    } else if |ss| == 1 {
      assert ScaleWords(ss[1..]) == "";
      assert ScaleNames(ss) == [ss[0].Word()];
    }
  }

  lemma ScaleWordsCons(ss: seq<Scale>)
    requires |ss| > 1
    requires ScaleWords(ss[1..]) == " " + Join(ScaleNames(ss[1..]), " ")
    ensures ScaleWords(ss) == " " + Join(ScaleNames(ss), " ")
  {
    var w, rest := ss[0].Word(), ScaleNames(ss[1..]);
    var j := Join(rest, " ");
    assert ScaleNames(ss) == [w] + rest;
    JoinCons(w, rest, " ");
    assert ScaleWords(ss) == " " + w + (" " + j);
    Associative(" " + w, " ", j);
    Associative(" ", w + " ", j);
    Associative(" ", w, " ");
  }

  lemma OnesHeard(d: nat)
    requires 1 <= d < 10
    ensures HeardNumber(OnesWord(d)) == Some(d)
  {
    assert d in {1, 2, 3, 4, 5, 6, 7, 8, 9};
  }

  lemma TeenHeard(d: nat)
    requires d < 10
    ensures HeardNumber(TeenWord(d)) == Some(10 + d)
  {
    assert d in {0, 1, 2, 3, 4, 5, 6, 7, 8, 9};
  }

  lemma TensHeard(d: nat)
    requires 1 <= d < 10
    ensures HeardNumber(TensWord(d)) == Some(10 * d)
  {
    assert d in {1, 2, 3, 4, 5, 6, 7, 8, 9};
  }

  lemma HundredsHeard(d: nat)
    requires 1 <= d < 10
    ensures HeardNumber(HundredsWord(d)) == Some(100 * d)
  {
    assert d in {1, 2, 3, 4, 5, 6, 7, 8, 9};
  }

  /** Every word a group can speak is heard as the number its token stands
      for. */
  lemma NumberWordHeard(w: Word)
    requires w.InTable()
    ensures HeardNumber(Spell(w)) == Some(w.Value())
  {
    match w
    case Hundreds(d) => HundredsHeard(d);
    case Teen(d) => TeenHeard(d);
    case Tens(d) => TensHeard(d);
    case Ones(d) => OnesHeard(d);
  }

  /** Every scale word is heard as the magnitude of its scale. */
  lemma ScaleWordHeard(s: Scale)
    ensures HeardScale(s.Word()) == Some(s.Value())
  {
  }

  /** The words of table tokens add up, for a listener, to the tokens'
      value. */
  lemma {:induction false} WordsHeard(ws: seq<Word>)
    requires forall i :: 0 <= i < |ws| ==> ws[i].InTable()
    ensures HeardSum(SpellAll(ws)) == Some(WordsValue(ws))
    decreases |ws|
  {
    if |ws| > 0 {
      NumberWordHeard(ws[0]);
      WordsHeard(ws[1..]);
      assert SpellAll(ws)[1..] == SpellAll(ws[1..]);
    }
  }

  lemma {:induction false} ScalesHeard(ss: seq<Scale>)
    ensures HeardUnit(ScaleNames(ss)) == Some(Unit(ss))
    decreases |ss|
  {
    if |ss| > 0 {
      ScaleWordHeard(ss[0]);
      ScalesHeard(ss[1..]);
      assert ScaleNames(ss)[1..] == ScaleNames(ss[1..]);
    }
  }

  /** A listener who hears the count words of a spoken group and then its
      scale words recovers the group's value: the count times the
      magnitude. */
  lemma GroupHeard(g: Group)
    requires Speakable(g)
    ensures HeardSum(SpellAll(g.words)).Some? && HeardUnit(ScaleNames(g.scales)).Some?
    ensures HeardSum(SpellAll(g.words)).value * HeardUnit(ScaleNames(g.scales)).value == GroupValue(g)
  {
    WordsHeard(g.words);
    ScalesHeard(g.scales);
  }

  /** Every count from 1 to 999 is heard back from its words. */
  lemma CountHeard(x: nat)
    requires 1 <= x < 1000
    ensures HeardSum(SpellAll(GroupWords(x))) == Some(x)
  {
    WordsHeard(GroupWords(x));
  }
}

=== FILE: lexicon.dfy ===
/** The calculator's Persian vocabulary: the single-key lexicon used to speak
    a pressed key or a fractional digit, the operator names spoken on a key
    press, and the word tables of the number reader (script.js:86-99,
    125-128, 187-196). */
module Lexicon {
  import opened Wrappers
  import opened Text
  import opened Numerals

  /** The key table of `keyToPersian`: digits, the decimal point, the four
      operators, percent and both parentheses. Every listed key is a single
      character; `None` for a key the table does not list. */
  function KeyWord(key: string): Option<string>
  {
    if |key| == 1 then CharWord(key[0]) else None
  }

  function CharWord(c: char): Option<string>
  {
    match c
    case '0' => Some("صفر")  case '1' => Some("یک")   case '2' => Some("دو")
    case '3' => Some("سه")   case '4' => Some("چهار") case '5' => Some("پنج")
    case '6' => Some("شش")   case '7' => Some("هفت")  case '8' => Some("هشت")
    case '9' => Some("نه")
    case '.' => Some("ممیز")
    case '+' => Some("جمع")
    case '-' => Some("منها")
    case '*' => Some("ضرب")
    case '/' => Some("تقسیم")
    case '%' => Some("درصد")
    case '(' => Some("پرانتز باز")
    case ')' => Some("پرانتز بسته")
    case _ => None
  }

  /** Property names every JavaScript object literal inherits from
      `Object.prototype`. Looking one of them up in the key table finds a
      function rather than a word, so the model leaves them out. */
  const InheritedNames: set<string> := {
    "constructor", "hasOwnProperty", "isPrototypeOf", "propertyIsEnumerable",
    "toLocaleString", "toString", "valueOf", "__proto__",
    "__defineGetter__", "__defineSetter__", "__lookupGetter__", "__lookupSetter__"
  }

  /** A key that names an inherited property. Every such name is longer
      than one character, so no single key is one. */
  predicate Inherited(key: string)
  {
    |key| > 1 && key in InheritedNames
  }

  /** `keyToPersian`: the table word of a listed key; any other key is
      echoed back unchanged (every table word is a non-empty string, so the
      `|| val` fallback fires only for unlisted keys). */
  function KeyToPersian(key: string): (w: string)
    requires !Inherited(key)
    ensures KeyWord(key).Some? ==> w == KeyWord(key).value && w != key
    ensures KeyWord(key).None? ==> w == key
  {
    match KeyWord(key)
    case Some(word) => word
    case None => key
  }

  /** A listener's view of the key table: which key a spoken word names. */
  function SpokenKey(w: string): Option<string>
  {
    match w
    case "صفر" => Some("0")  case "یک" => Some("1")   case "دو" => Some("2")
    case "سه" => Some("3")   case "چهار" => Some("4") case "پنج" => Some("5")
    case "شش" => Some("6")   case "هفت" => Some("7")  case "هشت" => Some("8")
    case "نه" => Some("9")
    case "ممیز" => Some(".")
    case "جمع" => Some("+")
    case "منها" => Some("-")
    case "ضرب" => Some("*")
    case "تقسیم" => Some("/")
    case "درصد" => Some("%")
    case "پرانتز باز" => Some("(")
    case "پرانتز بسته" => Some(")")
    case _ => None
  }

  /** The key table and its inverse are mutually inverse: no two keys share
      a word, so every spoken key can be told apart from every other. */
  lemma KeyTableBijective(key: string, word: string)
    ensures KeyWord(key) == Some(word) <==> SpokenKey(word) == Some(key)
  {
    if |key| == 1 {
      assert key == [key[0]];
    }
  }

  /** Speaking a listed key and hearing the word back recovers the key. */
  lemma SpokenKeyRoundTrip(key: string)
    requires KeyWord(key).Some?
    ensures !Inherited(key)
    ensures SpokenKey(KeyToPersian(key)) == Some(key)
  {
    KeyTableBijective(key, KeyWord(key).value);
  }

  /** Different listed keys are spoken differently. */
  lemma KeyToPersianInjective(a: string, b: string)
    requires KeyWord(a).Some? && KeyWord(b).Some?
    ensures !Inherited(a) && !Inherited(b)
    ensures KeyToPersian(a) == KeyToPersian(b) <==> a == b
  {
    SpokenKeyRoundTrip(a);
    SpokenKeyRoundTrip(b);
  }

  /** The word tables of `numberToPersianWords`, entry by entry. Entry 0 of
      the ones, tens and hundreds tables is the empty string; an index past
      the end of a table reads JavaScript's `undefined`, which `join` prints
      as the empty string, so both read "" here. */
  function OnesWord(d: nat): string
  {
    match d
    case 1 => "یک"   case 2 => "دو"    case 3 => "سه"   case 4 => "چهار" case 5 => "پنج"
    case 6 => "شش"   case 7 => "هفت"   case 8 => "هشت"  case 9 => "نه"
    case _ => ""
  }

  function TeenWord(d: nat): string
  {
    match d
    case 0 => "ده"     case 1 => "یازده"  case 2 => "دوازده" case 3 => "سیزده" case 4 => "چهارده"
    case 5 => "پانزده" case 6 => "شانزده" case 7 => "هفده"   case 8 => "هجده"  case 9 => "نوزده"
    case _ => ""
  }

  function TensWord(d: nat): string
  {
    match d
    case 1 => "ده"    case 2 => "بیست"  case 3 => "سی"    case 4 => "چهل"   case 5 => "پنجاه"
    case 6 => "شصت"   case 7 => "هفتاد" case 8 => "هشتاد" case 9 => "نود"
    case _ => ""
  }

  function HundredsWord(d: nat): string
  {
    match d
    case 1 => "یکصد"  case 2 => "دویست" case 3 => "سیصد"  case 4 => "چهارصد" case 5 => "پانصد"
    case 6 => "ششصد"  case 7 => "هفتصد" case 8 => "هشتصد" case 9 => "نهصد"
    case _ => ""
  }

  const ZeroWord: string := "صفر"
  const PointWord: string := "ممیز"
  const NegativeWord: string := "منفی"
  const InfiniteWord: string := "بی‌نهایت"
  const UnknownWord: string := "نامشخص"
  /** The conjunction " و " that joins the parts of a group and the groups. */
  const And: string := " و "

  /** Every word the number tables can speak is a single plain word. */
  lemma NumberTablesPlain()
    ensures forall d :: 1 <= d < 10 ==> Plain(OnesWord(d))
    ensures forall d :: 0 <= d < 10 ==> Plain(TeenWord(d))
    ensures forall d :: 1 <= d < 10 ==> Plain(TensWord(d))
    ensures forall d :: 1 <= d < 10 ==> Plain(HundredsWord(d))
  {
  }

  /** A digit is spoken the same way by the key lexicon (used for fractional
      digits) and by the number tables (used for the integer part): 1-9 by
      the ones table, 0 by the zero word. */
  lemma DigitWordsAgree(d: nat)
    requires d < 10
    ensures !Inherited([DigitChar(d)])
    ensures KeyToPersian([DigitChar(d)]) == (if d == 0 then ZeroWord else OnesWord(d))
  {
  }

  /** Every single digit is a listed key. */
  lemma DigitKeyListed(c: char)
    requires IsDigit(c)
    ensures KeyWord([c]).Some? && !Inherited([c])
  {
    assert c == DigitChar(DigitValue(c));
    var d := DigitValue(c);
    assert d == 0 || d == 1 || d == 2 || d == 3 || d == 4 || d == 5 || d == 6 || d == 7 || d == 8 || d == 9;
  }

  /** The operator names `appendValue` speaks for a non-digit key; they take
      precedence over the key lexicon. They name exactly the listed keys
      that are not digits, with the key lexicon's word for every one of
      them except minus. */
  function OperatorWord(key: string): (r: Option<string>)
    ensures r.Some? <==> KeyWord(key).Some? && !(|key| == 1 && IsDigit(key[0]))
    ensures r.Some? && key != "-" ==> r == KeyWord(key)
    ensures key == "-" ==> r == Some("منهای") && KeyWord(key) == Some("منها")
  {
    if |key| != 1 then None
    else match key[0]
      case '+' => Some("جمع")
      case '-' => Some("منهای")
      case '*' => Some("ضرب")
      case '/' => Some("تقسیم")
      case '%' => Some("درصد")
      case '(' => Some("پرانتز باز")
      case ')' => Some("پرانتز بسته")
      case '.' => Some("ممیز")
      case _ => None
  }

  /** What `appendValue` speaks for a pressed key: a single digit through
      the key lexicon, anything else through the operator names and then
      the key lexicon. The two agree on every key except minus, which the
      operator names read as "منهای" rather than "منها". */
  function PressAnnouncement(key: string): (w: string)
    requires !Inherited(key)
    ensures w == KeyToPersian(key) <==> key != "-"
    ensures key == "-" ==> w == "منهای"
  {
    if |key| == 1 && IsDigit(key[0]) then KeyToPersian(key)
    else match OperatorWord(key)
      case Some(word) => word
      case None => KeyToPersian(key)
  }
}

=== FILE: listener.dfy ===
/** What a listener hears in the spoken text itself, cut at its spaces:
    number words joined by the conjunction add up to a count, the scale
    words after them multiply it, and groups joined by the conjunction add
    up to the integer. Every integer below 10^15 is heard back from the
    text `numberToPersianWords` speaks for it. */
module Listening {
  import opened Wrappers
  import opened Text
  import opened Lexicon
  import opened ThreeDigits
  import opened Scales
  import opened NumberWords
  import opened Spoken
  import opened Denotation

  /** The conjunction as a token of its own. */
  const Conjunction: string := "و"

  lemma AndIsConjunction()
    ensures And == " " + Conjunction + " "
    ensures Plain(Conjunction) && HeardNumber(Conjunction).None? && HeardScale(Conjunction).None?
  {
  }

  /** The sum of the values a listener heard. */
  function Total(vs: seq<nat>): nat
    decreases |vs|
  {
    if |vs| == 0 then 0 else vs[0] + Total(vs[1..])
  }

  /** The values of table tokens, in order. */
  function Values(ws: seq<Word>): (vs: seq<nat>)
    ensures |vs| == |ws|
    ensures forall i :: 0 <= i < |ws| ==> vs[i] == ws[i].Value()
    decreases |ws|
  {
    if |ws| == 0 then [] else [ws[0].Value()] + Values(ws[1..])
  }

  /** Heard values add up to the tokens' value. */
  lemma {:induction false} TotalValues(ws: seq<Word>)
    ensures Total(Values(ws)) == WordsValue(ws)
    decreases |ws|
  {
    if |ws| > 0 {
      assert Values(ws)[1..] == Values(ws[1..]);
      TotalValues(ws[1..]);
    }
  }

  /** The values of the number words at the head of `toks`, one word
      first and another after each conjunction that follows, with the
      tokens left over. */
  function HeardCount(toks: seq<string>): (r: Option<(seq<nat>, seq<string>)>)
    ensures r.Some? ==> |r.value.0| > 0 && |r.value.1| < |toks|
    decreases |toks|
  {
    if |toks| == 0 then None
    else match HeardNumber(toks[0])
      case None => None
      case Some(v) =>
        if |toks| > 2 && toks[1] == Conjunction then
          (match HeardCount(toks[2..])
           case None => None
           case Some((vs, rest)) => Some(([v] + vs, rest)))
        else Some(([v], toks[1..]))
  }

  /** The magnitude of the scale words at the head of `toks`, with the
      tokens left over, which do not start with a scale word. */
  function HeardScales(toks: seq<string>): (r: (nat, seq<string>))
    ensures |r.1| <= |toks|
    ensures |r.1| > 0 ==> HeardScale(r.1[0]).None?
    decreases |toks|
  {
    if |toks| > 0 && HeardScale(toks[0]).Some? then
      var (u, rest) := HeardScales(toks[1..]);
      (HeardScale(toks[0]).value * u, rest)
    else (1, toks)
  }

  /** One group heard at the head of `toks`: the count words' total times
      the scale words' magnitude, with the tokens left over. */
  function HeardGroup(toks: seq<string>): (r: Option<(nat, seq<string>)>)
    ensures r.Some? ==> |r.value.1| < |toks|
  {
    match HeardCount(toks)
    case None => None
    case Some((vs, afterCount)) =>
      var (u, rest) := HeardScales(afterCount);
      Some((Total(vs) * u, rest))
  }

  /** The integer heard in tokens: groups joined by the conjunction, added
      up. */
  function HeardGroups(toks: seq<string>): Option<nat>
    decreases |toks|
  {
    match HeardGroup(toks)
    case None => None
    case Some((v, rest)) =>
      if |rest| == 0 then Some(v)
      else if rest[0] == Conjunction then
        (match HeardGroups(rest[1..])
         case None => None
         case Some(more) => Some(v + more))
      else None
  }

  /** The integer a listener hears in a text: the zero word, or groups
      between the spaces. */
  function HeardInteger(t: string): Option<nat>
  {
    if t == ZeroWord then Some(0) else HeardGroups(SplitOn(t, ' '))
  }

  /** The tokens of a group's text: its count words with the conjunction
      between them, then its scale words. */
  function GroupTokens(g: Group): (r: seq<string>)
    ensures |g.words| > 0 ==> |r| > 0
  {
    Interleave(SpellAll(g.words), Conjunction) + ScaleNames(g.scales)
  }

  /** The tokens of groups' texts joined by the conjunction. */
  function GroupsTokens(gs: seq<Group>): (r: seq<string>)
    ensures |gs| > 0 && |gs[0].words| > 0 ==> |r| > 0
    decreases |gs|
  {
    if |gs| == 0 then []
    else if |gs| == 1 then GroupTokens(gs[0])
    else GroupTokens(gs[0]) + ([Conjunction] + GroupsTokens(gs[1..]))
  }

  /** The spoken scale words hold no space and are not the conjunction. */
  lemma {:induction false} ScaleNamesPlain(ss: seq<Scale>)
    ensures forall k :: 0 <= k < |ss| ==> Plain(ScaleNames(ss)[k]) && ScaleNames(ss)[k] != Conjunction
  {
    forall k | 0 <= k < |ss|
      ensures Plain(ScaleNames(ss)[k]) && ScaleNames(ss)[k] != Conjunction
    {
      match ss[k]
      case Trillion => assert ' ' !in "تریلیون";
      case Billion => assert ' ' !in "میلیارد";
      case Million => assert ' ' !in "میلیون";
      case Thousand => assert ' ' !in "هزار";
    }
  }

  /** No token of a speakable group holds a space. */
  lemma {:induction false} GroupTokensPlain(g: Group)
    requires Speakable(g)
    ensures |GroupTokens(g)| > 0
    ensures forall k :: 0 <= k < |GroupTokens(g)| ==> Plain(GroupTokens(g)[k])
  {
    var spelled := SpellAll(g.words);
    forall k | 0 <= k < |spelled|
      ensures Plain(spelled[k])
    {
      SpellInTable(g.words[k]);
    }
    AndIsConjunction();
    ScaleNamesPlain(g.scales);
  }

  lemma {:induction false} GroupsTokensPlain(gs: seq<Group>)
    requires |gs| > 0
    requires forall k :: 0 <= k < |gs| ==> Speakable(gs[k])
    ensures forall k :: 0 <= k < |GroupsTokens(gs)| ==> Plain(GroupsTokens(gs)[k])
    decreases |gs|
  {
    GroupTokensPlain(gs[0]);
    if |gs| > 1 {
      GroupsTokensPlain(gs[1..]);
      AndIsConjunction();
    }
  }

  /** A speakable group's text is its tokens with a space between each
      two. */
  lemma {:induction false} GroupTextTokens(g: Group)
    requires Speakable(g)
    ensures GroupText(g) == Join(GroupTokens(g), " ")
  {
    var counts := Interleave(SpellAll(g.words), Conjunction);
    AndIsConjunction();
    JoinInterleave(SpellAll(g.words), Conjunction);
    assert WordsText(g.words) == Join(counts, " ");
    ScaleWordsNames(g.scales);
    if |g.scales| == 0 {
      assert GroupTokens(g) == counts;
    } else {
      JoinAppend(counts, ScaleNames(g.scales), " ");
      Associative(Join(counts, " "), " ", Join(ScaleNames(g.scales), " "));
    }
  }

  /** Group texts joined by the conjunction are the groups' tokens with a
      space between each two. */
  lemma {:induction false} GroupsTextTokens(gs: seq<Group>)
    requires |gs| > 0
    requires forall k :: 0 <= k < |gs| ==> Speakable(gs[k])
    ensures Join(GroupTexts(gs), And) == Join(GroupsTokens(gs), " ")
    decreases |gs|
  {
    GroupTextTokens(gs[0]);
    if |gs| == 1 {
      assert GroupTexts(gs) == [GroupText(gs[0])];
    } else {
      GroupsTextTokens(gs[1..]);
      GroupsTextStep(gs);
    }
  }

  lemma {:induction false} GroupsTextStep(gs: seq<Group>)
    requires |gs| > 1 && |gs[0].words| > 0 && |gs[1].words| > 0
    requires GroupText(gs[0]) == Join(GroupTokens(gs[0]), " ")
    requires Join(GroupTexts(gs[1..]), And) == Join(GroupsTokens(gs[1..]), " ")
    ensures Join(GroupTexts(gs), And) == Join(GroupsTokens(gs), " ")
  {
    assert GroupTexts(gs) == [GroupText(gs[0])] + GroupTexts(gs[1..]);
    JoinCons(GroupText(gs[0]), GroupTexts(gs[1..]), And);
    AndIsConjunction();
    JoinAround(GroupTokens(gs[0]), GroupsTokens(gs[1..]), Conjunction);
  }

  /** The text of speakable groups, cut at its spaces, gives back the
      groups' tokens. */
  lemma {:induction false} GroupsTextSplit(gs: seq<Group>)
    requires |gs| > 0
    requires forall k :: 0 <= k < |gs| ==> Speakable(gs[k])
    ensures SplitOn(Join(GroupTexts(gs), And), ' ') == GroupsTokens(gs)
  {
    GroupsTextTokens(gs);
    GroupsTokensPlain(gs);
    GroupTokensPlain(gs[0]);
    SplitSpaces(GroupsTokens(gs));
  }

  /** The listener on a number word that the conjunction and more number
      words follow. */
  lemma {:induction false} HeardCountMore(toks: seq<string>, v: nat, vs: seq<nat>, rest: seq<string>)
    requires |toks| > 2 && HeardNumber(toks[0]) == Some(v) && toks[1] == Conjunction
    requires HeardCount(toks[2..]) == Some((vs, rest))
    ensures HeardCount(toks) == Some(([v] + vs, rest))
  {
  }

  /** The listener on a number word that the conjunction does not follow. */
  lemma {:induction false} HeardCountLast(toks: seq<string>, v: nat)
    requires |toks| > 0 && HeardNumber(toks[0]) == Some(v)
    requires |toks| < 3 || toks[1] != Conjunction
    ensures HeardCount(toks) == Some(([v], toks[1..]))
  {
  }

  /** Number words joined by the conjunction are heard as their values in
      order; what follows is left over when it does not start with the
      conjunction. */
  lemma {:induction false} InterleaveHeard(parts: seq<string>, vs: seq<nat>, tail: seq<string>)
    requires |parts| == |vs| > 0
    requires forall i :: 0 <= i < |parts| ==> HeardNumber(parts[i]) == Some(vs[i])
    requires |tail| == 0 || tail[0] != Conjunction
    ensures HeardCount(Interleave(parts, Conjunction) + tail) == Some((vs, tail))
    decreases |parts|
  {
    var toks := Interleave(parts, Conjunction) + tail;
    if |parts| == 1 {
      assert toks == [parts[0]] + tail;
      HeardCountLast(toks, vs[0]);
      assert toks[1..] == tail;
      assert vs == [vs[0]];
    } else {
      var rest := Interleave(parts[1..], Conjunction);
      InterleaveHeard(parts[1..], vs[1..], tail);
      assert toks == [parts[0], Conjunction] + (rest + tail);
      assert toks[2..] == rest + tail;
      HeardCountMore(toks, vs[0], vs[1..], tail);
      HeadTail(vs);
    }
  }

  /** The count words of table tokens, joined by the conjunction, are heard
      as the tokens' values in order. */
  lemma {:induction false} CountTokensHeard(ws: seq<Word>, tail: seq<string>)
    requires |ws| > 0
    requires forall i :: 0 <= i < |ws| ==> ws[i].InTable()
    requires |tail| == 0 || tail[0] != Conjunction
    ensures HeardCount(Interleave(SpellAll(ws), Conjunction) + tail) == Some((Values(ws), tail))
  {
    var parts, vs := SpellAll(ws), Values(ws);
    forall i | 0 <= i < |parts|
      ensures HeardNumber(parts[i]) == Some(vs[i])
    {
      NumberWordHeard(ws[i]);
    }
    InterleaveHeard(parts, vs, tail);
  }

  /** Scale words are heard as the scales' magnitude; what follows is left
      over when it does not start with a scale word. */
  lemma {:induction false} ScaleTokensHeard(ss: seq<Scale>, tail: seq<string>)
    requires |tail| == 0 || HeardScale(tail[0]).None?
    ensures HeardScales(ScaleNames(ss) + tail) == (Unit(ss), tail)
    decreases |ss|
  {
    if |ss| > 0 {
      ScaleWordHeard(ss[0]);
      ScaleTokensHeard(ss[1..], tail);
      assert ScaleNames(ss) + tail == [ss[0].Word()] + (ScaleNames(ss[1..]) + tail);
    } else {
      assert ScaleNames(ss) + tail == tail;
    }
  }

  /** A speakable group's tokens are heard as its count's values and then
      its scales' magnitude, followed by what comes after it when that is
      the conjunction or nothing. */
  lemma {:induction false} GroupTokensHeard(g: Group, tail: seq<string>)
    requires Speakable(g)
    requires tail == [] || (|g.scales| > 0 && tail[0] == Conjunction)
    ensures HeardCount(GroupTokens(g) + tail) == Some((Values(g.words), ScaleNames(g.scales) + tail))
    ensures HeardScales(ScaleNames(g.scales) + tail) == (Unit(g.scales), tail)
    ensures Total(Values(g.words)) * Unit(g.scales) == GroupValue(g)
  {
    var names := ScaleNames(g.scales);
    Associative(Interleave(SpellAll(g.words), Conjunction), names, tail);
    AfterCount(g.scales, tail);
    CountTokensHeard(g.words, names + tail);
    AndIsConjunction();
    ScaleTokensHeard(g.scales, tail);
    TotalValues(g.words);
  }

  /** What follows a group's count words does not start with the
      conjunction. */
  lemma {:induction false} AfterCount(ss: seq<Scale>, tail: seq<string>)
    requires tail == [] || |ss| > 0
    ensures |ScaleNames(ss) + tail| == 0 || (ScaleNames(ss) + tail)[0] != Conjunction
  {
    if |ss| > 0 {
      ScaleNamesPlain(ss);
      assert (ScaleNames(ss) + tail)[0] == ScaleNames(ss)[0];
    }
  }

  /** A speakable group is heard as its value, followed by what comes
      after it when that is nothing or, after a scale word, the
      conjunction. */
  lemma {:induction false} GroupHeardBefore(g: Group, tail: seq<string>)
    requires Speakable(g)
    requires tail == [] || (|g.scales| > 0 && tail[0] == Conjunction)
    ensures HeardGroup(GroupTokens(g) + tail) == Some((GroupValue(g), tail))
  {
    GroupTokensHeard(g, tail);
  }

  /** Token chunks joined by the conjunction. */
  function Joined(ts: seq<seq<string>>): seq<string>
    decreases |ts|
  {
    if |ts| == 0 then []
    else if |ts| == 1 then ts[0]
    else ts[0] + ([Conjunction] + Joined(ts[1..]))
  }

  /** What follows chunk `k` in the joined tokens. */
  function After(ts: seq<seq<string>>, k: nat): seq<string>
    requires k < |ts|
  {
    if k == |ts| - 1 then [] else [Conjunction] + Joined(ts[k + 1..])
  }

  lemma {:induction false} AfterShift(ts: seq<seq<string>>, k: nat)
    requires k + 1 < |ts|
    ensures After(ts[1..], k) == After(ts, k + 1)
  {
    assert ts[1..][k + 1..] == ts[k + 2..];
  }

  /** The listener on a group that nothing follows. */
  lemma {:induction false} HeardGroupsLast(toks: seq<string>, v: nat)
    requires HeardGroup(toks) == Some((v, []))
    ensures HeardGroups(toks) == Some(v)
  {
  }

  /** The listener on a group that the conjunction and more groups
      follow. */
  lemma {:induction false} HeardGroupsMore(toks: seq<string>, v: nat, more: seq<string>, m: nat)
    requires HeardGroup(toks) == Some((v, [Conjunction] + more))
    requires HeardGroups(more) == Some(m)
    ensures HeardGroups(toks) == Some(v + m)
  {
    assert ([Conjunction] + more)[1..] == more;
  }

  /** Each chunk heard as one group before what follows it. */
  predicate EachHeard(ts: seq<seq<string>>, vs: seq<nat>)
    requires |ts| == |vs|
  {
    forall k :: 0 <= k < |ts| ==> HeardGroup(ts[k] + After(ts, k)) == Some((vs[k], After(ts, k)))
  }

  /** Chunks each heard as one group before what follows them are, joined,
      heard as the groups' values added up. */
  lemma {:induction false} JoinedHeard(ts: seq<seq<string>>, vs: seq<nat>)
    requires |ts| == |vs| > 0
    requires EachHeard(ts, vs)
    ensures HeardGroups(Joined(ts)) == Some(Total(vs))
    decreases |ts|
  {
    if |ts| == 1 {
      LastChunkHeard(ts, vs);
    } else {
      EachHeardTail(ts, vs);
      JoinedHeard(ts[1..], vs[1..]);
      FirstChunkHeard(ts, vs);
    }
  }

  lemma {:induction false} LastChunkHeard(ts: seq<seq<string>>, vs: seq<nat>)
    requires |ts| == |vs| == 1
    requires HeardGroup(ts[0] + After(ts, 0)) == Some((vs[0], After(ts, 0)))
    ensures HeardGroups(Joined(ts)) == Some(Total(vs))
  {
    assert ts[0] + After(ts, 0) == ts[0];
    HeardGroupsLast(ts[0], vs[0]);
    assert Total(vs) == vs[0] + Total(vs[1..]);
  }

  lemma {:induction false} FirstChunkHeard(ts: seq<seq<string>>, vs: seq<nat>)
    requires |ts| == |vs| > 1
    requires HeardGroup(ts[0] + After(ts, 0)) == Some((vs[0], After(ts, 0)))
    requires HeardGroups(Joined(ts[1..])) == Some(Total(vs[1..]))
    ensures HeardGroups(Joined(ts)) == Some(Total(vs))
  {
    TotalCons(vs);
    ChunkThenMore(ts, vs[0], Total(vs[1..]));
  }

  /** A first chunk heard as `v` before the conjunction, and the rest heard
      as `m`, make the joined chunks heard as `v + m`. */
  lemma {:induction false} ChunkThenMore(ts: seq<seq<string>>, v: nat, m: nat)
    requires |ts| > 1
    requires HeardGroup(ts[0] + After(ts, 0)) == Some((v, After(ts, 0)))
    requires HeardGroups(Joined(ts[1..])) == Some(m)
    ensures HeardGroups(Joined(ts)) == Some(v + m)
  {
    JoinedCons(ts);
    HeardGroupsMore(Joined(ts), v, Joined(ts[1..]), m);
  }

  /** Chunks joined are the first chunk, the conjunction, and the rest
      joined; the conjunction and the rest are what follows the first. */
  lemma {:induction false} JoinedCons(ts: seq<seq<string>>)
    requires |ts| > 1
    ensures After(ts, 0) == [Conjunction] + Joined(ts[1..])
    ensures Joined(ts) == ts[0] + After(ts, 0)
  {
    assert ts[0 + 1..] == ts[1..];
  }

  lemma {:induction false} TotalCons(vs: seq<nat>)
    requires |vs| > 0
    ensures Total(vs) == vs[0] + Total(vs[1..])
  {
  }

  lemma {:induction false} EachHeardTail(ts: seq<seq<string>>, vs: seq<nat>)
    requires |ts| == |vs| > 1
    requires EachHeard(ts, vs)
    ensures EachHeard(ts[1..], vs[1..])
    ensures HeardGroup(ts[0] + After(ts, 0)) == Some((vs[0], After(ts, 0)))
  {
    var rest := ts[1..];
    forall k | 0 <= k < |rest|
      ensures HeardGroup(rest[k] + After(rest, k)) == Some((vs[1..][k], After(rest, k)))
    {
      AfterShift(ts, k);
      assert rest[k] == ts[k + 1];
    }
  }

  /** The tokens of each group, in order. */
  function Chunks(gs: seq<Group>): (ts: seq<seq<string>>)
    ensures |ts| == |gs|
    ensures forall k :: 0 <= k < |gs| ==> ts[k] == GroupTokens(gs[k])
    decreases |gs|
  {
    if |gs| == 0 then [] else [GroupTokens(gs[0])] + Chunks(gs[1..])
  }

  /** The value of each group, in order. */
  function ChunkValues(gs: seq<Group>): (vs: seq<nat>)
    ensures |vs| == |gs|
    ensures forall k :: 0 <= k < |gs| ==> vs[k] == GroupValue(gs[k])
    decreases |gs|
  {
    if |gs| == 0 then [] else [GroupValue(gs[0])] + ChunkValues(gs[1..])
  }

  lemma {:induction false} ChunksJoined(gs: seq<Group>)
    ensures GroupsTokens(gs) == Joined(Chunks(gs))
    decreases |gs|
  {
    if |gs| > 1 {
      ChunksJoined(gs[1..]);
      assert Chunks(gs)[1..] == Chunks(gs[1..]);
    }
  }

  lemma {:induction false} ChunkValuesTotal(gs: seq<Group>)
    ensures GroupsValue(gs) == Total(ChunkValues(gs))
    decreases |gs|
  {
    if |gs| > 0 {
      ChunkValuesTotal(gs[1..]);
      assert ChunkValues(gs)[1..] == ChunkValues(gs[1..]);
    }
  }

  /** Each chunk of speakable groups, every one but the last carrying a
      scale word, is heard as its group before what follows it. */
  lemma {:induction false} ChunksHeard(gs: seq<Group>)
    requires forall k :: 0 <= k < |gs| ==> Speakable(gs[k])
    requires forall k :: 0 <= k < |gs| - 1 ==> |gs[k].scales| > 0
    ensures EachHeard(Chunks(gs), ChunkValues(gs))
  {
    var ts := Chunks(gs);
    forall k | 0 <= k < |gs|
      ensures HeardGroup(ts[k] + After(ts, k)) == Some((ChunkValues(gs)[k], After(ts, k)))
    {
      GroupHeardBefore(gs[k], After(ts, k));
    }
  }

  /** Groups that are speakable, every one but the last carrying a scale
      word, are heard back from their tokens as their value. */
  lemma {:induction false} GroupsTokensHeard(gs: seq<Group>)
    requires |gs| > 0
    requires forall k :: 0 <= k < |gs| ==> Speakable(gs[k])
    requires forall k :: 0 <= k < |gs| - 1 ==> |gs[k].scales| > 0
    ensures HeardGroups(GroupsTokens(gs)) == Some(GroupsValue(gs))
  {
    ChunksHeard(gs);
    JoinedHeard(Chunks(gs), ChunkValues(gs));
    ChunksJoined(gs);
    ChunkValuesTotal(gs);
  }

  lemma {:induction false} UnitPositive(ss: seq<Scale>)
    ensures Unit(ss) >= 1
    decreases |ss|
  {
    if |ss| > 0 {
      UnitPositive(ss[1..]);
    }
  }

  /** Every group the scale loop speaks before the last carries a scale
      word: only the final remainder has none. */
  lemma {:induction false} ScaledBeforeLast(gs: seq<Group>)
    requires Descending(gs)
    ensures forall k :: 0 <= k < |gs| - 1 ==> |gs[k].scales| > 0
  {
    forall k | 0 <= k < |gs| - 1
      ensures |gs[k].scales| > 0
    {
      UnitPositive(gs[k + 1].scales);
      assert Unit(gs[k].scales) > Unit(gs[k + 1].scales);
    }
  }

  /** Every integer below 10^15 is heard back from the text
      `numberToPersianWords` speaks for it. */
  lemma IntegerHeard(n: nat)
    requires n < Limit
    ensures HeardInteger(IntegerWords(n)) == Some(n)
  {
    IntegerWordsShape(n);
    if n > 0 {
      var gs := Groups(n);
      CorrectedBelowLimit(n);
      ScaleWordsOnceInOrder(n);
      ScaledBeforeLast(gs);
      assert GroupsValue(gs) == n;
      GroupsTextSplit(gs);
      GroupsTokensHeard(gs);
    }
  }

  /** A count from 1 to 999 is spoken as its table words, largest first,
      joined by the conjunction: cut at its spaces, its text is heard as
      strictly descending values that add up to the count, with nothing
      left over. */
  lemma CountTextHeard(x: nat)
    requires 1 <= x < 1000
    ensures var vs := Values(GroupWords(x));
      && HeardCount(SplitOn(ThreeDigitsText(x), ' ')) == Some((vs, []))
      && (forall i, j :: 0 <= i < j < |vs| ==> vs[i] > vs[j])
      && Total(vs) == x
  {
    var g := Group(GroupWords(x), []);
    assert Speakable(g);
    GroupsTextSplit([g]);
    assert GroupTexts([g]) == [GroupText(g)];
    assert ScaleWords([]) == "";
    assert ThreeDigitsText(x) == Join(GroupTexts([g]), And);
    CountTokensHeard(g.words, []);
    assert GroupTokens(g) == Interleave(SpellAll(g.words), Conjunction) + [];
    TotalValues(g.words);
  }
}

=== FILE: number_words.dfy ===
/** `numberToPersianWords` (script.js:102-165): how the calculator speaks a
    number. The argument is first read into a structured `Reading` (which
    branch of the function applies, and which table words it picks), then
    the reading is rendered as the string the function returns. */
module NumberWords {
  import opened Wrappers
  import opened Text
  import opened Numerals
  import opened Lexicon
  import opened ThreeDigits
  import opened Scales

  /** What the function is called with: a non-finite number (`Infinity`,
      `-Infinity` or `NaN`), or a string. A finite number behaves exactly as
      the string `String(num)` does, so it enters as that string. */
  datatype Argument = NonFinite | Str(text: string)

  /** What is spoken, before it is spelled out. */
  datatype Reading =
    | Infinite                                 // the "infinite" word
    | Unknown                                  // the "unknown" word
    | Verbatim(text: string)                   // the argument echoed as it is
    | Negative(magnitude: Reading)             // "negative", then the magnitude
    | Decimal(whole: Reading, fraction: seq<string>)  // whole part, "point", one word per character
    | Zero                                     // the zero word
    | Grouped(groups: seq<Group>)              // a positive integer in scale groups

  /** The strings the model reads exactly as the source does: after any
      leading minus signs, the text before the first `.` (all of it when
      there is none) must not start with white space or a sign, and its
      leading digits must be worth less than 10^15. Text containing `e`,
      and the text "NaN", are taken whatever they hold. */
  predicate Modelled(s: string)
    decreases |s|
  {
    if s == "NaN" || 'e' in s then true
    else if |s| > 0 && s[0] == '-' then Modelled(s[1..])
    else
      var head := FieldBefore(s, '.');
      && ParseIntModelled(head)
      && (ParseInt(head).Some? ==> ParseInt(head).value < Limit)
  }

  predicate ArgumentModelled(x: Argument)
  {
    x.Str? ==> Modelled(x.text)
  }

  /** The reading of an integer: the zero word, or its scale groups. */
  function IntegerReading(n: nat): Reading
  {
    if n == 0 then Zero else Grouped(CorrectedGroups(n))
  }

  /** The fraction read out one character at a time: each character is
      spoken through the key lexicon. */
  function FractionWords(f: string): (ws: seq<string>)
    ensures |ws| == |f|
    ensures forall i :: 0 <= i < |f| ==> ws[i] == KeyToPersian([f[i]])
    decreases |f|
  {
    if |f| == 0 then [] else [KeyToPersian([f[0]])] + FractionWords(f[1..])
  }

  /** The branches of the function in the order it tries them: "NaN", then
      scientific notation, then a leading minus (read recursively), then a
      decimal point (the integer part through `parseInt`, whose `NaN` reads
      as infinite; the fraction digit by digit), then `parseInt` of the
      whole text (`NaN` echoes the text). A positive integer is read as at
      least one group, each spoken from the tables. */
  function ReadText(s: string): (r: Reading)
    requires Modelled(s)
    ensures r.Grouped? ==> |r.groups| > 0 && forall k :: 0 <= k < |r.groups| ==> Speakable(r.groups[k])
    ensures r.Negative? ==> |s| > 0 && s[0] == '-'
    ensures r.Decimal? ==> '.' in s
    decreases |s|
  {
    if s == "NaN" then Unknown
    else if 'e' in s then Verbatim(s)
    else if |s| > 0 && s[0] == '-' then Negative(ReadText(s[1..]))
    else if '.' in s then
      var whole := match ParseInt(FieldBefore(s, '.'))
        case None => Infinite
        case Some(n) => IntegerReading(n);
      Decimal(whole, FractionWords(FieldAfter(s, '.')))
    else
      match ParseInt(s)
      case None => Verbatim(s)
      case Some(n) => IntegerReading(n)
  }

  function Read(x: Argument): Reading
    requires ArgumentModelled(x)
  {
    match x
    case NonFinite => Infinite
    case Str(s) => ReadText(s)
  }

  /** Spells a reading the way the function concatenates its pieces. */
  function Render(r: Reading): string
  {
    match r
    case Infinite => InfiniteWord
    case Unknown => UnknownWord
    case Verbatim(t) => t
    case Negative(m) => NegativeWord + " " + Render(m)
    case Decimal(w, ws) => Render(w) + " " + PointWord + " " + Join(ws, " ")
    case Zero => ZeroWord
    case Grouped(gs) => GroupsText(gs)
  }

  /** `numberToPersianWords(num)`. */
  function NumberToWords(x: Argument): (w: string)
    requires ArgumentModelled(x)
    ensures x.NonFinite? ==> w == InfiniteWord
    ensures x == Str("NaN") ==> w == UnknownWord
    ensures x.Str? && x.text != "NaN" && 'e' in x.text ==> w == x.text
  {
    Render(Read(x))
  }

  /** Speaks an integer: `numberToPersianWords(n)` for a whole number. */
  function IntegerWords(n: nat): string
  {
    Render(IntegerReading(n))
  }

  /** The reading of the integer part of a decimal text: `parseInt` of
      the text before the point, `NaN` reading as infinite. */
  function WholeReading(s: string): Reading
    requires ParseIntModelled(FieldBefore(s, '.'))
  {
    match ParseInt(FieldBefore(s, '.'))
    case None => Infinite
    case Some(n) => IntegerReading(n)
  }

  /** The source's integer path for every integer it holds exactly (below
      2^53): the scale loop as written, whose trillion count may exceed the
      hundreds table. Below 10^15 it is what the model speaks. */
  function AsWrittenIntegerWords(n: nat): (w: string)
    requires n < 0x20_0000_0000_0000
    ensures n < Limit ==> w == IntegerWords(n)
  {
    assert n < Limit ==> CorrectedGroups(n) == Groups(n) by {
      if n < Limit { CorrectedBelowLimit(n); }
    }
    if n == 0 then ZeroWord else GroupsText(Groups(n))
  }

}

=== FILE: numerals.dfy ===
/** Decimal digit strings: the parts of JavaScript's `parseInt(s, 10)` and
    `String(n)` that the number reader relies on. */
module Numerals {
  import opened Wrappers

  predicate IsDigit(c: char)
  {
    '0' <= c <= '9'
  }

  predicate AllDigits(s: string)
  {
    forall i :: 0 <= i < |s| ==> IsDigit(s[i])
  }

  function DigitValue(c: char): (d: nat)
    requires IsDigit(c)
    ensures d < 10
  {
    c as int - '0' as int
  }

  function DigitChar(d: nat): (c: char)
    requires d < 10
    ensures IsDigit(c) && DigitValue(c) == d
  {
    ('0' as int + d) as char
  }

  /** The value of a digit string read most significant digit first; the
      empty string reads as 0. */
  function DigitsValue(ds: string): nat
    requires AllDigits(ds)
    decreases |ds|
  {
    if |ds| == 0 then 0
    else 10 * DigitsValue(ds[..|ds| - 1]) + DigitValue(ds[|ds| - 1])
  }

  /** The longest prefix of `s` made of decimal digits. */
  function LeadingDigits(s: string): (p: string)
    ensures p <= s
    ensures AllDigits(p)
    ensures |p| < |s| ==> !IsDigit(s[|p|])
    decreases |s|
  {
    if |s| > 0 && IsDigit(s[0]) then [s[0]] + LeadingDigits(s[1..]) else ""
  }

  /** The characters `parseInt` skips or reads as a sign before the digits:
      JavaScript white space, line terminators, `+` and `-`. */
  predicate IsSpaceOrSign(c: char)
  {
    || c == '\t' || c == '\n' || c == '\U{000B}' || c == '\U{000C}' || c == '\r'
    || c == ' ' || c == '\U{00A0}' || c == '\U{1680}'
    || ('\U{2000}' <= c <= '\U{200A}')
    || c == '\U{2028}' || c == '\U{2029}' || c == '\U{202F}' || c == '\U{205F}'
    || c == '\U{3000}' || c == '\U{FEFF}'
    || c == '+' || c == '-'
  }

  /** The strings on which `ParseInt` below reads the digits `parseInt(s, 10)`
      reads: those that do not start with white space or a sign. */
  predicate ParseIntModelled(s: string)
  {
    |s| == 0 || !IsSpaceOrSign(s[0])
  }

  /** `parseInt(s, 10)`: the value of the leading run of digits, `None`
      standing for `NaN` when `s` does not start with a digit. Trailing
      characters after the run are ignored. The value is the exact integer;
      JavaScript rounds it to the nearest double, which is the same number
      below 2^53 and so for every value the number reader speaks (below
      10^15). */
  function ParseInt(s: string): (r: Option<nat>)
    requires ParseIntModelled(s)
    ensures r.None? <==> (|s| == 0 || !IsDigit(s[0]))
    ensures AllDigits(s) && |s| > 0 ==> r == Some(DigitsValue(s))
  {
    var p := LeadingDigits(s);
    assert AllDigits(s) && |s| > 0 ==> p == s by {
      if AllDigits(s) && |s| > 0 { LeadingDigitsUnique(s, s); }
    }
    if |p| == 0 then None else Some(DigitsValue(p))
  }

  /** A digit prefix that cannot be extended is the leading run. */
  lemma LeadingDigitsUnique(s: string, t: string)
    requires AllDigits(t) && t <= s && (|t| == |s| || !IsDigit(s[|t|]))
    ensures t == LeadingDigits(s)
  {
    assert |t| == |LeadingDigits(s)|;
  }

  /** `parseInt` reads exactly the maximal run of digits at the front:
      whatever follows the first non-digit is ignored. */
  lemma ParseIntPrefix(s: string, t: string)
    requires ParseIntModelled(s)
    requires AllDigits(t) && |t| > 0 && t <= s && (|t| == |s| || !IsDigit(s[|t|]))
    ensures ParseInt(s) == Some(DigitsValue(t))
  {
    LeadingDigitsUnique(s, t);
  }

  /** `String(n)` for a non-negative integer: its decimal digits, with no
      leading zero. */
  function DecimalString(n: nat): (s: string)
    ensures |s| > 0 && AllDigits(s)
    ensures Canonical(s)
    decreases n
  {
    if n < 10 then [DigitChar(n)]
    else DecimalString(n / 10) + [DigitChar(n % 10)]
  }

  /** A digit string as `String` writes it: no leading zero unless it is "0". */
  predicate Canonical(s: string)
  {
    |s| > 0 && AllDigits(s) && (|s| > 1 ==> s[0] != '0')
  }

  /** Reading back what `String(n)` wrote gives `n`. */
  lemma {:induction false} DecimalStringValue(n: nat)
    ensures DigitsValue(DecimalString(n)) == n
    decreases n
  {
    if n >= 10 {
      DecimalStringValue(n / 10);
      var s := DecimalString(n);
      assert s[..|s| - 1] == DecimalString(n / 10);
    }
  }

  /** `parseInt(String(n), 10) == n`. */
  lemma ParseDecimalString(n: nat)
    ensures ParseIntModelled(DecimalString(n))
    ensures ParseInt(DecimalString(n)) == Some(n)
  {
    DecimalStringValue(n);
  }

  /** A digit string that starts with a non-zero digit has a positive value. */
  lemma {:induction false} LeadingNonZeroPositive(s: string)
    requires |s| > 0 && AllDigits(s) && s[0] != '0'
    ensures DigitsValue(s) > 0
    decreases |s|
  {
    if |s| > 1 {
      var init := s[..|s| - 1];
      assert init[0] == s[0];
      LeadingNonZeroPositive(init);
    }
  }

  /** The other direction: writing the value of a canonical digit string
      gives the string back, so `String` and `parseInt` are inverse on
      canonical strings. */
  lemma {:induction false} CanonicalRoundTrip(s: string)
    requires Canonical(s)
    ensures DecimalString(DigitsValue(s)) == s
    decreases |s|
  {
    if |s| > 1 {
      var init := s[..|s| - 1];
      var last := s[|s| - 1];
      assert Canonical(init) by { assert init[0] == s[0]; }
      LeadingNonZeroPositive(init);
      CanonicalRoundTrip(init);
      var v := DigitsValue(s);
      assert v == 10 * DigitsValue(init) + DigitValue(last);
      assert v / 10 == DigitsValue(init) && v % 10 == DigitValue(last);
      assert DigitChar(DigitValue(last)) == last;
    }
  }
}

=== FILE: percent.dfy ===
/** The percent rewrite `evaluateExpression` applies before evaluation
    (script.js:221): every run of digits and points followed by `%` is
    replaced, globally, by `(`, the run and `/100)`. `Replace` is the
    regular-expression scan itself, greedy run and backtracking included;
    `Rewrite` says the same thing run by run, and the two are proved equal. */
module Percent {
  import opened Wrappers
  import opened Text

  /** The character class `[0-9\.]`. */
  predicate RunChar(c: char)
  {
    '0' <= c <= '9' || c == '.'
  }

  predicate AllRun(s: string)
  {
    forall i :: 0 <= i < |s| ==> RunChar(s[i])
  }

  /** The longest prefix of `s` inside the class: what the greedy `+`
      takes before it looks for the `%`. */
  function Run(s: string): (r: string)
    ensures r <= s
    ensures AllRun(r)
    ensures |r| < |s| ==> !RunChar(s[|r|])
    decreases |s|
  {
    if |s| > 0 && RunChar(s[0]) then [s[0]] + Run(s[1..]) else ""
  }

  /** The pattern matches at the start of `s` taking `k` class characters. */
  predicate PatternAt(s: string, k: nat)
  {
    0 < k < |s| && AllRun(s[..k]) && s[k] == '%'
  }

  /** Backtracking: gives back one class character at a time, from `k`
      down to one, until a `%` follows. */
  function Backtrack(s: string, k: nat): (m: Option<nat>)
    requires k <= |s|
    ensures m.Some? ==> 0 < m.value <= k && m.value < |s| && s[m.value] == '%'
    decreases k
  {
    if k == 0 then None
    else if k < |s| && s[k] == '%' then Some(k)
    else Backtrack(s, k - 1)
  }

  /** The match at the start of `s`, as the engine finds it: the greedy
      run, then backtracking. */
  function MatchAt(s: string): (m: Option<nat>)
    ensures m.Some? ==> PatternAt(s, m.value)
  {
    var r := Run(s);
    var m := Backtrack(s, |r|);
    assert m.Some? ==> s[..m.value] == r[..m.value];
    m
  }

  /** The global replace: where the pattern matches, the run and its `%`
      become `(` run `/100)` and the scan resumes after the `%`; elsewhere
      the character is kept and the scan moves on by one. The text never
      gets shorter, and its first character is kept unless it starts a
      class run, which a match turns into `(`. */
  function Replace(s: string): (r: string)
    ensures |r| >= |s|
    ensures |s| > 0 ==> |r| > 0 && (r[0] == s[0] || (r[0] == '(' && RunChar(s[0])))
    decreases |s|
  {
    if |s| == 0 then ""
    else match MatchAt(s)
      case Some(k) => "(" + s[..k] + "/100)" + Replace(s[k + 1..])
      case None => [s[0]] + Replace(s[1..])
  }

  /** The same transformation told run by run: a maximal run of class
      characters followed by `%` is replaced, any other run is kept. */
  function Rewrite(s: string): string
    decreases |s|
  {
    if |s| == 0 then ""
    else if !RunChar(s[0]) then [s[0]] + Rewrite(s[1..])
    else
      var r := Run(s);
      var rest := s[|r|..];
      if |rest| > 0 && rest[0] == '%' then "(" + r + "/100)" + Rewrite(rest[1..])
      else r + Rewrite(rest)
  }

  /** The places the rewrite acts on: a `%` right after a class character. */
  function Sites(s: string): nat
    decreases |s|
  {
    if |s| < 2 then 0
    else (if RunChar(s[0]) && s[1] == '%' then 1 else 0) + Sites(s[1..])
  }

  /** A run that ends where `s` stops being in the class is the greedy run. */
  lemma RunUnique(s: string, t: string)
    requires AllRun(t) && t <= s && (|t| == |s| || !RunChar(s[|t|]))
    ensures t == Run(s)
  {
    assert |t| == |Run(s)|;
  }

  /** The pattern can only match with the whole greedy run: backtracking
      never finds a `%` inside a run. */
  lemma {:induction false} PatternUnique(s: string, k: nat)
    requires PatternAt(s, k)
    ensures k == |Run(s)|
  {
    RunUnique(s, s[..k]);
  }

  lemma {:induction false} BacktrackNone(s: string, k: nat)
    requires k <= |s|
    requires forall j :: 0 < j <= k && j < |s| ==> s[j] != '%'
    ensures Backtrack(s, k) == None
    decreases k
  {
    if k > 0 { BacktrackNone(s, k - 1); }
  }

  /** The engine finds a match exactly when the pattern matches, and then
      it takes the whole greedy run. */
  lemma {:induction false} MatchAtPattern(s: string)
    ensures MatchAt(s).Some? <==> exists k :: PatternAt(s, k)
    ensures MatchAt(s).Some? ==> MatchAt(s).value == |Run(s)|
  {
    var r := Run(s);
    if k :| PatternAt(s, k) {
      PatternUnique(s, k);
    } else {
      forall j | 0 < j <= |r| && j < |s|
        ensures s[j] != '%'
      {
        if j < |r| {
          assert s[j] == r[j];
        } else {
          assert s[..j] == r;
          assert !PatternAt(s, j);
        }
      }
      BacktrackNone(s, |r|);
    }
    if MatchAt(s).Some? { PatternUnique(s, MatchAt(s).value); }
  }

  /** No match starts where the greedy run is not followed by `%`. */
  lemma {:induction false} NoMatchInRun(s: string)
    requires |Run(s)| == |s| || s[|Run(s)|] != '%'
    ensures MatchAt(s) == None
  {
    var r := Run(s);
    forall j | 0 < j <= |r| && j < |s|
      ensures s[j] != '%'
    {
      if j < |r| { assert s[j] == r[j]; }
    }
    BacktrackNone(s, |r|);
  }

  /** Past a greedy run that no `%` follows, the engine keeps the run
      character by character. */
  lemma {:induction false} ReplaceKeepsRun(s: string)
    requires |s| > 0 && RunChar(s[0])
    requires |Run(s)| == |s| || s[|Run(s)|] != '%'
    ensures Replace(s) == Run(s) + Replace(s[|Run(s)|..])
    decreases |s|
  {
    var r := Run(s);
    NoMatchInRun(s);
    ReplaceKept(s);
    RunTail(s);
    if |r| > 1 {
      var t := s[1..];
      assert t[|r| - 1..] == s[|r|..];
      ReplaceKeepsRun(t);
      Associative([s[0]], r[1..], Replace(s[|r|..]));
    }
  }

  /** Where no match starts, the engine keeps the first character. */
  lemma ReplaceKept(s: string)
    requires |s| > 0 && MatchAt(s) == None
    ensures Replace(s) == [s[0]] + Replace(s[1..])
  {
  }

  /** The greedy run of `s` is its first character, then the greedy run of
      the rest. */
  lemma RunTail(s: string)
    requires |s| > 0 && RunChar(s[0])
    ensures Run(s) == [s[0]] + Run(s[1..])
    ensures |Run(s)| > 1 ==> RunChar(s[1])
  {
  }

  /** The regular-expression scan and the run-by-run rewrite agree on
      every text. */
  lemma {:induction false} ReplaceIsRewrite(s: string)
    ensures Replace(s) == Rewrite(s)
    decreases |s|
  {
    if |s| > 0 {
      var r := Run(s);
      if !RunChar(s[0]) {
        assert MatchAt(s) == None;
        ReplaceIsRewrite(s[1..]);
      } else if |r| < |s| && s[|r|] == '%' {
        assert MatchAt(s) == Some(|r|);
        assert s[|r|..][1..] == s[|r| + 1..];
        ReplaceIsRewrite(s[|r| + 1..]);
      } else {
        ReplaceKeepsRun(s);
        ReplaceIsRewrite(s[|r|..]);
      }
    }
  }

  lemma {:induction false} NoPercentNoSites(s: string)
    requires '%' !in s
    ensures Sites(s) == 0
    decreases |s|
  {
    if |s| >= 2 {
      assert s[1] in s;
      assert forall c :: c in s[1..] ==> c in s;
      NoPercentNoSites(s[1..]);
    }
  }

  lemma SitesNonRun(c: char, t: string)
    requires !RunChar(c)
    ensures Sites([c] + t) == Sites(t)
  {
    if |t| > 0 { assert ([c] + t)[1..] == t; }
  }

  /** A run followed by something other than `%` holds no site. */
  lemma {:induction false} SitesRunKept(r: string, t: string)
    requires AllRun(r)
    requires |t| == 0 || t[0] != '%'
    ensures Sites(r + t) == Sites(t)
    decreases |r|
  {
    if |r| > 0 {
      var s := r + t;
      assert s[0] == r[0] && s[1..] == r[1..] + t;
      SitesRunKept(r[1..], t);
      if |s| >= 2 {
        assert s[1] != '%' by {
          if |r| > 1 { assert s[1] == r[1]; } else { assert s[1] == t[0]; }
        }
        assert Sites(s) == Sites(s[1..]);
      } else {
        assert |t| == 0;
      }
    } else {
      assert r + t == t;
    }
  }

  /** A run followed by `%` holds exactly one site. */
  lemma {:induction false} SitesRunPercent(r: string, t: string)
    requires |r| > 0 && AllRun(r)
    ensures Sites(r + "%" + t) == 1 + Sites(t)
    decreases |r|
  {
    assert (r + "%" + t)[1..] == r[1..] + "%" + t;
    if |r| == 1 {
      SitesNonRun('%', t);
      assert r[1..] + "%" + t == ['%'] + t;
    } else {
      SitesRunPercent(r[1..], t);
    }
  }

  /** A text that starts with a class character is its greedy run, then
      the rest. */
  lemma RunSplit(s: string)
    requires |s| > 0 && RunChar(s[0])
    ensures |Run(s)| > 0
    ensures s == Run(s) + s[|Run(s)|..]
  {
    var r := Run(s);
    TakeDrop(s, |r|);
    assert s[..|r|] == r;
  }

  lemma CutAt(s: string, k: nat)
    requires k < |s|
    ensures s[..k] + [s[k]] + s[k + 1..] == s
  {
    TakeDrop(s, k);
    assert s[k..] == [s[k]] + s[k + 1..];
    Associative(s[..k], [s[k]], s[k + 1..]);
  }

  lemma TakeDrop(s: string, k: nat)
    requires k <= |s|
    ensures s[..k] + s[k..] == s
  {
  }

  /** When a `%` ends the greedy run, the text is the run, the `%`, and the
      rest. */
  lemma RunPercentSplit(s: string)
    requires |s| > 0 && RunChar(s[0])
    requires |Run(s)| < |s| && s[|Run(s)|] == '%'
    ensures s == Run(s) + "%" + s[|Run(s)| + 1..]
  {
    var r := Run(s);
    CutAt(s, |r|);
    assert s[..|r|] == r;
  }

  lemma {:induction false} RewriteLength(s: string)
    ensures |Rewrite(s)| == |s| + 5 * Sites(s)
    decreases |s|
  {
    if |s| > 0 {
      var r := Run(s);
      if !RunChar(s[0]) {
        assert s == [s[0]] + s[1..];
        SitesNonRun(s[0], s[1..]);
        RewriteLength(s[1..]);
      } else {
        RunSplit(s);
        var rest := s[|r|..];
        if |rest| > 0 && rest[0] == '%' {
          RunPercentSplit(s);
          assert rest[1..] == s[|r| + 1..];
          SitesRunPercent(r, rest[1..]);
          RewriteLength(rest[1..]);
        } else {
          SitesRunKept(r, rest);
          RewriteLength(rest);
        }
      }
    }
  }

  lemma {:induction false} NoSitesRewriteIdentity(s: string)
    requires Sites(s) == 0
    ensures Rewrite(s) == s
    decreases |s|
  {
    if |s| > 0 {
      var r := Run(s);
      if !RunChar(s[0]) {
        assert s == [s[0]] + s[1..];
        SitesNonRun(s[0], s[1..]);
        NoSitesRewriteIdentity(s[1..]);
      } else {
        RunSplit(s);
        var rest := s[|r|..];
        if |rest| > 0 && rest[0] == '%' {
          RunPercentSplit(s);
          assert rest[1..] == s[|r| + 1..];
          SitesRunPercent(r, rest[1..]);
          assert false;
        } else {
          SitesRunKept(r, rest);
          NoSitesRewriteIdentity(rest);
        }
      }
    }
  }

  /** The replacement text holds no site, and neither does what follows it. */
  lemma ReplacementClean(r: string, t: string)
    requires AllRun(r)
    ensures Sites("(" + r + "/100)" + t) == Sites(t)
  {
    assert "(" + r + "/100)" + t == ['('] + (r + ("/100)" + t));
    assert "/100)" + t == ['/'] + ("100" + (")" + t));
    SitesNonRun('(', r + ("/100)" + t));
    SitesRunKept(r, "/100)" + t);
    SitesNonRun('/', "100" + (")" + t));
    SitesRunKept("100", ")" + t);
    assert ")" + t == [')'] + t;
    SitesNonRun(')', t);
  }

  /** The output of the rewrite has no site left. */
  lemma {:induction false} RewriteClean(s: string)
    ensures Sites(Rewrite(s)) == 0
    ensures |s| > 0 && !RunChar(s[0]) ==> |Rewrite(s)| > 0 && Rewrite(s)[0] == s[0]
    decreases |s|
  {
    if |s| > 0 {
      var r := Run(s);
      if !RunChar(s[0]) {
        RewriteClean(s[1..]);
        SitesNonRun(s[0], Rewrite(s[1..]));
      } else {
        RunSplit(s);
        var rest := s[|r|..];
        if |rest| > 0 && rest[0] == '%' {
          RewriteClean(rest[1..]);
          ReplacementClean(r, Rewrite(rest[1..]));
        } else {
          RewriteClean(rest);
          SitesRunKept(r, Rewrite(rest));
        }
      }
    }
  }

  /** A text without `%` goes to the evaluator unchanged. */
  lemma {:induction false} NoPercentUnchanged(s: string)
    requires '%' !in s
    ensures Replace(s) == s
  {
    NoPercentNoSites(s);
    NoSitesRewriteIdentity(s);
    ReplaceIsRewrite(s);
  }

  /** Every replacement adds five characters: `(` and `/100)` in place of
      the `%`. */
  lemma {:induction false} ReplaceLength(s: string)
    ensures |Replace(s)| == |s| + 5 * Sites(s)
  {
    ReplaceIsRewrite(s);
    RewriteLength(s);
  }

  /** The texts the rewrite leaves alone are exactly those with no `%`
      right after a digit or a dot. */
  lemma {:induction false} FixedPoints(s: string)
    ensures Replace(s) == s <==> Sites(s) == 0
  {
    ReplaceLength(s);
    if Sites(s) == 0 {
      NoSitesRewriteIdentity(s);
      ReplaceIsRewrite(s);
    }
  }

  /** Rewriting twice is rewriting once. */
  lemma ReplaceIdempotent(s: string)
    ensures Replace(Replace(s)) == Replace(s)
  {
    ReplaceIsRewrite(s);
    RewriteClean(s);
    FixedPoints(Replace(s));
  }

  lemma RewriteNonRun(c: char, t: string)
    requires !RunChar(c)
    ensures Rewrite([c] + t) == [c] + Rewrite(t)
  {
    assert ([c] + t)[1..] == t;
  }

  lemma RewritePercent(r: string, t: string)
    requires |r| > 0 && AllRun(r)
    ensures Rewrite(r + "%" + t) == "(" + r + "/100)" + Rewrite(t)
  {
    var s := r + "%" + t;
    RunUnique(s, r);
    assert s[|r|..][1..] == t;
  }

  lemma RewriteKept(r: string, t: string)
    requires |r| > 0 && AllRun(r)
    requires |t| == 0 || (!RunChar(t[0]) && t[0] != '%')
    ensures Rewrite(r + t) == r + Rewrite(t)
  {
    var s := r + t;
    RunUnique(s, r);
    assert s[|r|..] == t;
  }

  /** A maximal run followed by `%` becomes `(` run `/100)`, and the rest
      is rewritten on its own. */
  lemma RunReplaced(r: string, t: string)
    requires |r| > 0 && AllRun(r)
    ensures Replace(r + "%" + t) == "(" + r + "/100)" + Replace(t)
  {
    RewritePercent(r, t);
    ReplaceIsRewrite(r + "%" + t);
    ReplaceIsRewrite(t);
  }

  /** A maximal run followed by neither a class character nor `%` is kept. */
  lemma RunKept(r: string, t: string)
    requires AllRun(r)
    requires |t| == 0 || (!RunChar(t[0]) && t[0] != '%')
    ensures Replace(r + t) == r + Replace(t)
  {
    if |r| > 0 {
      RewriteKept(r, t);
    } else {
      assert r + t == t;
    }
    ReplaceIsRewrite(r + t);
    ReplaceIsRewrite(t);
  }

  /** The rewrite works piece by piece wherever the text is cut after a
      character outside the class. */
  lemma {:induction false} RewriteSplit(a: string, x: string)
    requires |a| == 0 || !RunChar(a[|a| - 1])
    ensures Rewrite(a + x) == Rewrite(a) + Rewrite(x)
    decreases |a|, 2
  {
    if |a| == 0 {
      assert a + x == x;
    } else if !RunChar(a[0]) {
      SplitAfterOther(a, x);
    } else {
      SplitAfterRun(a, x);
    }
  }

  lemma {:induction false} SplitAfterOther(a: string, x: string)
    requires |a| > 0 && !RunChar(a[0]) && !RunChar(a[|a| - 1])
    ensures Rewrite(a + x) == Rewrite(a) + Rewrite(x)
    decreases |a|, 1
  {
    var b := a[1..];
    assert (a + x)[1..] == b + x;
    if |b| > 0 { assert b[|b| - 1] == a[|a| - 1]; }
    RewriteSplit(b, x);
  }

  lemma {:induction false} SplitAfterRun(a: string, x: string)
    requires |a| > 0 && RunChar(a[0]) && !RunChar(a[|a| - 1])
    ensures Rewrite(a + x) == Rewrite(a) + Rewrite(x)
    decreases |a|, 1
  {
    var r := Run(a);
    assert |r| > 0 && |r| < |a| by { RunSplit(a); }
    var c := a[|r|];
    var b := a[|r| + 1..];
    assert a == r + [c] + b by {
      RunSplit(a);
      assert a[|r|..] == [c] + b;
    }
    if |b| > 0 { assert b[|b| - 1] == a[|a| - 1]; }
    if c == '%' {
      SplitPercentHead(r, b, x);
    } else {
      SplitKeptHead(r, c, b, x);
    }
  }

  lemma {:induction false} SplitPercentHead(r: string, b: string, x: string)
    requires |r| > 0 && AllRun(r)
    requires |b| == 0 || !RunChar(b[|b| - 1])
    ensures Rewrite(r + "%" + b + x) == Rewrite(r + "%" + b) + Rewrite(x)
    decreases |r| + 1 + |b|, 0
  {
    var p, rb, rx := "(" + r + "/100)", Rewrite(b), Rewrite(x);
    Associative(r + "%", b, x);
    RewritePercent(r, b);
    RewritePercent(r, b + x);
    RewriteSplit(b, x);
    Associative(p, rb, rx);
  }

  lemma {:induction false} SplitKeptHead(r: string, c: char, b: string, x: string)
    requires |r| > 0 && AllRun(r) && !RunChar(c) && c != '%'
    requires |b| == 0 || !RunChar(b[|b| - 1])
    ensures Rewrite(r + [c] + b + x) == Rewrite(r + [c] + b) + Rewrite(x)
    decreases |r| + 1 + |b|, 0
  {
    var p, rb, rx := r + [c], Rewrite(b), Rewrite(x);
    Associative(r + [c], b, x);
    RunStepKept(r, c, b);
    RunStepKept(r, c, b + x);
    RewriteSplit(b, x);
    Associative(p, rb, rx);
  }

  /** A maximal run ended by a character other than `%` is kept, and so
      is that character. */
  lemma RunStepKept(r: string, c: char, t: string)
    requires |r| > 0 && AllRun(r) && !RunChar(c) && c != '%'
    ensures Rewrite(r + [c] + t) == r + [c] + Rewrite(t)
  {
    RewriteKept(r, [c] + t);
    RewriteNonRun(c, t);
    Associative(r, [c], t);
    Associative(r, [c], Rewrite(t));
  }

  /** The scan works piece by piece wherever the text is cut after a
      character outside the class: no match straddles such a cut. */
  lemma ReplaceSplit(a: string, x: string)
    requires |a| == 0 || !RunChar(a[|a| - 1])
    ensures Replace(a + x) == Replace(a) + Replace(x)
  {
    ReplaceIsRewrite(a + x);
    ReplaceIsRewrite(a);
    ReplaceIsRewrite(x);
    RewriteSplit(a, x);
  }

  /** Wherever a maximal run stands before a `%` (at the start of the text
      or after a character outside the class), the rewrite turns it into a
      division by one hundred, and leaves both sides to themselves. */
  lemma EveryRunReplaced(a: string, r: string, t: string)
    requires |a| == 0 || !RunChar(a[|a| - 1])
    requires |r| > 0 && AllRun(r)
    ensures Replace(a + r + "%" + t) == Replace(a) + ("(" + r + "/100)") + Replace(t)
  {
    var u := r + "%" + t;
    var p := "(" + r + "/100)";
    Associative(a, r, "%");
    Associative(a, r + "%", t);
    assert a + r + "%" + t == a + u;
    ReplaceSplit(a, u);
    RunReplaced(r, t);
    Associative(Replace(a), p, Replace(t));
  }

  /** "50%*2" reaches the evaluator as "(50/100)*2". */
  lemma HalfOfTwo()
    ensures Replace("50%*2") == "(50/100)*2"
  {
    RunReplaced("50", "*2");
    assert "50" + "%" + "*2" == "50%*2";
    assert Replace("*2") == "*2" by {
      NoPercentUnchanged("*2");
    }
    assert "(" + "50" + "/100)" + "*2" == "(50/100)*2";
  }
}

=== FILE: scales.dfy ===
/** The scale loop of `numberToPersianWords` (script.js:129-134, 152-164):
    an integer is cut into a trillion, billion, million and thousand count
    and a final remainder, each spoken as a group of up to three digits. */
module Scales {
  import opened Text
  import opened Lexicon
  import opened ThreeDigits
  import opened Arith

  datatype Scale = Trillion | Billion | Million | Thousand
  {
    function Value(): nat
    {
      match this
      case Trillion => 1_000_000_000_000
      case Billion => 1_000_000_000
      case Million => 1_000_000
      case Thousand => 1_000
    }

    function Word(): string
    {
      match this
      case Trillion => "تریلیون"
      case Billion => "میلیارد"
      case Million => "میلیون"
      case Thousand => "هزار"
    }
  }

  /** The scale table, largest first, in the order the loop visits it. */
  const Scales: seq<Scale> := [Trillion, Billion, Million, Thousand]

  /** 10^15: below it every count the loop produces is at most 999. */
  const Limit: nat := 1_000_000_000_000_000

  /** One spoken group: the words of a count, then its scale words (none for
      the final remainder, one for a group of the scale loop). */
  datatype Group = Group(words: seq<Word>, scales: seq<Scale>)

  /** The magnitude a list of scale words multiplies its count by. */
  function Unit(ss: seq<Scale>): nat
    decreases |ss|
  {
    if |ss| == 0 then 1 else ss[0].Value() * Unit(ss[1..])
  }

  function GroupValue(g: Group): nat
  {
    WordsValue(g.words) * Unit(g.scales)
  }

  /** The number a listener hears in a sequence of groups. */
  function GroupsValue(gs: seq<Group>): nat
    decreases |gs|
  {
    if |gs| == 0 then 0 else GroupValue(gs[0]) + GroupsValue(gs[1..])
  }

  /** The loop position i stands for the scale `Scales[i]`; position 4 for
      the final remainder. */
  function UnitAt(i: nat): nat
    requires i <= 4
  {
    if i < 4 then Scales[i].Value() else 1
  }

  function ScalesAt(i: nat): seq<Scale>
    requires i <= 4
  {
    if i < 4 then [Scales[i]] else []
  }

  /** Every count and scale word is spoken from its table: the count words
      are non-empty and each indexes a real table entry. */
  predicate Speakable(g: Group)
  {
    && |g.words| > 0
    && forall i :: 0 <= i < |g.words| ==> g.words[i].InTable()
  }

  /** Groups of strictly descending magnitude: no scale is spoken twice and
      larger scales come first. */
  predicate Descending(gs: seq<Group>)
  {
    forall a, b :: 0 <= a < b < |gs| ==> Unit(gs[a].scales) > Unit(gs[b].scales)
  }

  /** The scale loop from position `i` on, with `rem` still to be spoken:
      a scale whose value `rem` reaches takes the count `rem / value` and
      leaves `rem % value`; what is left after the thousands is spoken as a
      last group when it is non-zero. The function is total, as the loop
      is. The groups always add up to `rem`. */
  function GroupsFrom(rem: nat, i: nat): (gs: seq<Group>)
    requires i <= 4
    ensures GroupsValue(gs) == rem
    decreases 4 - i
  {
    if i == 4 then
      if rem > 0 then
        var g := Group(GroupWords(rem), []);
        assert GroupValue(g) == rem by {
          assert Unit([]) == 1;
        }
        assert GroupsValue([g]) == GroupValue(g) by {
          assert [g][1..] == [];
        }
        [g]
      else []
    else
      var v := Scales[i].Value();
      if rem >= v then
        var g := Group(GroupWords(rem / v), [Scales[i]]);
        var rest := GroupsFrom(rem % v, i + 1);
        ScaleStep(rem, i);
        assert GroupsValue([g] + rest) == GroupValue(g) + GroupsValue(rest) by {
          assert ([g] + rest)[0] == g;
          assert ([g] + rest)[1..] == rest;
        }
        [g] + rest
      else
        GroupsFrom(rem, i + 1)
  }

  /** One step of the loop loses nothing: count times scale plus what is
      left is what there was. */
  lemma ScaleStep(rem: nat, i: nat)
    requires i < 4
    ensures GroupValue(Group(GroupWords(rem / UnitAt(i)), [Scales[i]])) + rem % UnitAt(i) == rem
  {
    var v := UnitAt(i);
    assert Unit([Scales[i]]) == v;
    assert rem / v * v + rem % v == rem;
  }

  /** No group from position `i` on is larger than the scale at `i`, and
      each carries at most one scale word. */
  lemma {:induction false} GroupsFromBounded(rem: nat, i: nat)
    requires i <= 4
    ensures forall k :: 0 <= k < |GroupsFrom(rem, i)| ==>
      Unit(GroupsFrom(rem, i)[k].scales) <= UnitAt(i) && |GroupsFrom(rem, i)[k].scales| <= 1
    decreases 4 - i
  {
    var gs := GroupsFrom(rem, i);
    if i == 4 {
      assert Unit([]) == 1;
    } else {
      var v := Scales[i].Value();
      UnitAtDescending(i, i + 1);
      if rem >= v {
        var rest := GroupsFrom(rem % v, i + 1);
        GroupsFromBounded(rem % v, i + 1);
        UnitOfScalesAt(i);
        assert gs == [Group(GroupWords(rem / v), [Scales[i]])] + rest;
        forall k | 0 <= k < |gs|
          ensures Unit(gs[k].scales) <= UnitAt(i) && |gs[k].scales| <= 1
        {
          if k > 0 { assert gs[k] == rest[k - 1]; }
        }
      } else {
        GroupsFromBounded(rem, i + 1);
      }
    }
  }

  /** The groups from position `i` on are in strictly descending magnitude. */
  lemma {:induction false} GroupsFromDescending(rem: nat, i: nat)
    requires i <= 4
    ensures Descending(GroupsFrom(rem, i))
    decreases 4 - i
  {
    var gs := GroupsFrom(rem, i);
    if i < 4 {
      var v := Scales[i].Value();
      if rem >= v {
        var rest := GroupsFrom(rem % v, i + 1);
        GroupsFromDescending(rem % v, i + 1);
        GroupsFromBounded(rem % v, i + 1);
        UnitAtDescending(i, i + 1);
        UnitOfScalesAt(i);
        assert gs == [Group(GroupWords(rem / v), [Scales[i]])] + rest;
        forall a, b | 0 <= a < b < |gs|
          ensures Unit(gs[a].scales) > Unit(gs[b].scales)
        {
          assert gs[b] == rest[b - 1];
          if a > 0 { assert gs[a] == rest[a - 1]; }
        }
      } else {
        GroupsFromDescending(rem, i + 1);
      }
    }
  }

  /** Below `1000 * UnitAt(i)` every count the loop produces from position
      `i` on is between 1 and 999, so every word indexes a real table
      entry. */
  lemma {:induction false} GroupsFromSpeakable(rem: nat, i: nat)
    requires i <= 4
    requires rem < 1000 * UnitAt(i)
    ensures forall k :: 0 <= k < |GroupsFrom(rem, i)| ==> Speakable(GroupsFrom(rem, i)[k])
    decreases 4 - i
  {
    if i < 4 {
      var v := Scales[i].Value();
      assert v == 1000 * UnitAt(i + 1);
      if rem >= v {
        GroupsFromSpeakable(rem % v, i + 1);
        assert 1 <= rem / v < 1000;
      } else {
        GroupsFromSpeakable(rem, i + 1);
      }
    }
  }

  /** The groups the source speaks for `n`: the whole scale loop. */
  function Groups(n: nat): seq<Group>
  {
    GroupsFrom(n, 0)
  }

  lemma {:induction false} GroupsValueAppend(a: seq<Group>, b: seq<Group>)
    ensures GroupsValue(a + b) == GroupsValue(a) + GroupsValue(b)
    decreases |a|
  {
    if |a| == 0 {
      assert a + b == b;
    } else {
      assert (a + b)[0] == a[0];
      assert (a + b)[1..] == a[1..] + b;
      GroupsValueAppend(a[1..], b);
    }
  }

  lemma {:induction false} UnitAppend(ss: seq<Scale>, s: Scale)
    ensures Unit(ss + [s]) == Unit(ss) * s.Value()
    decreases |ss|
  {
    if |ss| > 0 {
      assert (ss + [s])[1..] == ss[1..] + [s];
      UnitAppend(ss[1..], s);
    }
  }

  lemma MulAssoc(a: nat, b: nat, c: nat)
    ensures a * (b * c) == (a * b) * c
  {
  }

  /** Appends a scale word to every group: the groups of a count that is
      itself spoken in front of that scale. */
  function Lift(gs: seq<Group>, s: Scale): (r: seq<Group>)
    ensures |r| == |gs|
    ensures forall k :: 0 <= k < |gs| ==> r[k] == Group(gs[k].words, gs[k].scales + [s])
    decreases |gs|
  {
    if |gs| == 0 then [] else [Group(gs[0].words, gs[0].scales + [s])] + Lift(gs[1..], s)
  }

  lemma {:induction false} LiftValue(gs: seq<Group>, s: Scale)
    ensures GroupsValue(Lift(gs, s)) == GroupsValue(gs) * s.Value()
    decreases |gs|
  {
    if |gs| > 0 {
      var l := Lift(gs, s);
      assert l[1..] == Lift(gs[1..], s);
      LiftValue(gs[1..], s);
      UnitAppend(gs[0].scales, s);
      MulAssoc(WordsValue(gs[0].words), Unit(gs[0].scales), s.Value());
    }
  }

  /** The scale loop with its evident intent carried past 10^15: a trillion
      count of 1000 or more is itself spoken in groups, each followed by the
      trillion word ("یک هزار تریلیون"), instead of reading past the end of
      the hundreds table. Below 10^15 it is the source's loop unchanged. */
  function CorrectedGroups(n: nat): (gs: seq<Group>)
    ensures GroupsValue(gs) == n
    ensures forall k :: 0 <= k < |gs| ==> Speakable(gs[k])
    decreases n
  {
    if n < Limit then
      GroupsFromSpeakable(n, 0);
      Groups(n)
    else
      var high := CorrectedGroups(n / Trillion.Value());
      var low := GroupsFrom(n % Trillion.Value(), 1);
      GroupsFromSpeakable(n % Trillion.Value(), 1);
      LiftValue(high, Trillion);
      GroupsValueAppend(Lift(high, Trillion), low);
      Lift(high, Trillion) + low
  }

  lemma CorrectedBelowLimit(n: nat)
    requires n < Limit
    ensures CorrectedGroups(n) == Groups(n)
  {
  }

  /** The base-1000 digit of `n` at loop position `i`. */
  function Digit(n: nat, i: nat): nat
    requires i <= 4
  {
    n / UnitAt(i) % 1000
  }

  /** An independent reading of `n`: its non-zero base-1000 digits from
      position `i` on, most significant first, each with the scale of its
      position. */
  function DigitGroups(n: nat, i: nat): seq<Group>
    requires i <= 4
    decreases 4 - i
  {
    (if Digit(n, i) != 0 then [Group(GroupWords(Digit(n, i)), ScalesAt(i))] else [])
    + (if i == 4 then [] else DigitGroups(n, i + 1))
  }

  lemma UnitAtDescending(i: nat, j: nat)
    requires i < j <= 4
    ensures UnitAt(i) > UnitAt(j)
    ensures UnitAt(i) == UnitAt(i) / UnitAt(j) * UnitAt(j)
    ensures UnitAt(i) / UnitAt(j) % 1000 == 0
  {
  }

  lemma UnitOfScalesAt(i: nat)
    requires i <= 4
    ensures Unit(ScalesAt(i)) == UnitAt(i)
  {
  }

  /** Taking the remainder by a larger scale keeps every smaller digit. */
  lemma DigitOfRemainder(n: nat, i: nat, j: nat)
    requires i < j <= 4
    ensures Digit(n % UnitAt(i), j) == Digit(n, j)
  {
    UnitAtDescending(i, j);
    var c := UnitAt(i) / UnitAt(j);
    ModDiv(n, UnitAt(j), c);
    ModMod(n / UnitAt(j), c, 1000);
  }

  lemma {:induction false} DigitGroupsOfRemainder(n: nat, i: nat, j: nat)
    requires i < j <= 4
    ensures DigitGroups(n % UnitAt(i), j) == DigitGroups(n, j)
    decreases 4 - j
  {
    DigitOfRemainder(n, i, j);
    if j < 4 {
      DigitGroupsOfRemainder(n, i, j + 1);
    }
  }

  /** Below `1000 * UnitAt(i)` the loop from position `i` speaks exactly the
      non-zero base-1000 digits. */
  lemma {:induction false} GroupsFromDigits(rem: nat, i: nat)
    requires i <= 4
    requires rem < 1000 * UnitAt(i)
    ensures GroupsFrom(rem, i) == DigitGroups(rem, i)
    decreases 4 - i
  {
    if i < 4 {
      var v := UnitAt(i);
      assert v == 1000 * UnitAt(i + 1);
      if rem >= v {
        assert Digit(rem, i) == rem / v;
        GroupsFromDigits(rem % v, i + 1);
        DigitGroupsOfRemainder(rem, i, i + 1);
      } else {
        assert Digit(rem, i) == 0;
        GroupsFromDigits(rem, i + 1);
      }
    } else {
      assert Digit(rem, 4) == rem;
    }
  }

  /** No group from position `i` on is larger than the scale at `i`. */
  lemma {:induction false} DigitGroupsBound(n: nat, i: nat)
    requires i <= 4
    ensures forall k :: 0 <= k < |DigitGroups(n, i)| ==> Unit(DigitGroups(n, i)[k].scales) <= UnitAt(i)
    decreases 4 - i
  {
    UnitOfScalesAt(i);
    if i < 4 {
      DigitGroupsBound(n, i + 1);
      UnitAtDescending(i, i + 1);
    }
  }

  /** Some group of `gs` carries exactly the scale words `ss`. */
  predicate HasScales(gs: seq<Group>, ss: seq<Scale>)
  {
    exists k :: 0 <= k < |gs| && gs[k].scales == ss
  }

  /** Every group of `gs` carrying the scale words `ss` counts `d`. */
  predicate CountsAre(gs: seq<Group>, ss: seq<Scale>, d: nat)
  {
    forall k :: 0 <= k < |gs| && gs[k].scales == ss ==> WordsValue(gs[k].words) == d
  }

  lemma HasScalesAppend(a: seq<Group>, b: seq<Group>, ss: seq<Scale>)
    ensures HasScales(a + b, ss) <==> HasScales(a, ss) || HasScales(b, ss)
    ensures forall d :: CountsAre(a + b, ss, d) <==> CountsAre(a, ss, d) && CountsAre(b, ss, d)
  {
    var ab := a + b;
    assert forall k :: 0 <= k < |a| ==> ab[k] == a[k];
    assert forall k :: 0 <= k < |b| ==> ab[|a| + k] == b[k];
    if HasScales(ab, ss) {
      var k :| 0 <= k < |ab| && ab[k].scales == ss;
      if k >= |a| {
        assert b[k - |a|] == ab[k];
      }
    }
    forall d
      ensures CountsAre(ab, ss, d) <==> CountsAre(a, ss, d) && CountsAre(b, ss, d)
    {
      if CountsAre(a, ss, d) && CountsAre(b, ss, d) {
        forall k | 0 <= k < |ab| && ab[k].scales == ss
          ensures WordsValue(ab[k].words) == d
        {
          if k >= |a| {
            assert ab[k] == b[k - |a|];
          }
        }
      }
    }
  }

  /** The reading has a group with the scale of position `j` exactly when
      the digit there is non-zero, and that group's count is the digit. */
  lemma {:induction false} DigitGroupsMember(n: nat, i: nat, j: nat)
    requires i <= j <= 4
    ensures HasScales(DigitGroups(n, i), ScalesAt(j)) <==> Digit(n, j) != 0
    ensures CountsAre(DigitGroups(n, i), ScalesAt(j), Digit(n, j))
    decreases 4 - i, 1
  {
    if i == j {
      DigitGroupsHere(n, i);
    } else {
      DigitGroupsBelow(n, i, j);
    }
  }

  /** The group of position `i` itself: present exactly for a non-zero
      digit, and no later group shares its scale. */
  lemma DigitGroupsHere(n: nat, i: nat)
    requires i <= 4
    ensures HasScales(DigitGroups(n, i), ScalesAt(i)) <==> Digit(n, i) != 0
    ensures CountsAre(DigitGroups(n, i), ScalesAt(i), Digit(n, i))
  {
    var d := Digit(n, i);
    var head := if d != 0 then [Group(GroupWords(d), ScalesAt(i))] else [];
    var tail := if i == 4 then [] else DigitGroups(n, i + 1);
    assert DigitGroups(n, i) == head + tail;
    HasScalesAppend(head, tail, ScalesAt(i));
    UnitOfScalesAt(i);
    if i < 4 {
      DigitGroupsBound(n, i + 1);
      UnitAtDescending(i, i + 1);
    }
    assert !HasScales(tail, ScalesAt(i));
    if d != 0 {
      assert head[0].scales == ScalesAt(i);
    }
  }

  /** A later position `j`: the group of position `i` has another scale,
      so the answer comes from the groups after it. */
  lemma {:induction false} DigitGroupsBelow(n: nat, i: nat, j: nat)
    requires i < j <= 4
    ensures HasScales(DigitGroups(n, i), ScalesAt(j)) <==> Digit(n, j) != 0
    ensures CountsAre(DigitGroups(n, i), ScalesAt(j), Digit(n, j))
    decreases 4 - i, 0
  {
    var d := Digit(n, i);
    var head := if d != 0 then [Group(GroupWords(d), ScalesAt(i))] else [];
    var tail := DigitGroups(n, i + 1);
    assert DigitGroups(n, i) == head + tail;
    HasScalesAppend(head, tail, ScalesAt(j));
    UnitOfScalesAt(i);
    UnitOfScalesAt(j);
    UnitAtDescending(i, j);
    assert ScalesAt(i) != ScalesAt(j);
    assert !HasScales(head, ScalesAt(j));
    DigitGroupsMember(n, i + 1, j);
  }

  /** Which groups the source speaks for 0 <= n < 10^15: a group with the
      scale word of position `j` (none for j = 4, the final remainder)
      exactly when the base-1000 digit of `n` there is non-zero, and that
      group's count is the digit. So a scale word is spoken only with a
      count of at least 1, and a zero final remainder adds no group. */
  lemma GroupsSpeakDigits(n: nat, j: nat)
    requires n < Limit && j <= 4
    ensures HasScales(Groups(n), ScalesAt(j)) <==> Digit(n, j) != 0
    ensures CountsAre(Groups(n), ScalesAt(j), Digit(n, j))
  {
    GroupsFromDigits(n, 0);
    DigitGroupsMember(n, 0, j);
  }

  /** Every scale word is spoken at most once, larger scales first. */
  lemma ScaleWordsOnceInOrder(n: nat)
    ensures Descending(Groups(n))
    ensures forall a, b :: 0 <= a < |Groups(n)| && 0 <= b < |Groups(n)| && Groups(n)[a].scales == Groups(n)[b].scales ==> a == b
  {
    GroupsFromDescending(n, 0);
  }

  /** What the loop has still to speak before position `i`: all of `n`
      before the first scale, the remainder by the previous scale after. */
  function LeftAt(n: nat, i: nat): nat
    requires i <= 4
  {
    if i == 0 then n else n % UnitAt(i - 1)
  }

  /** Passing position `i` leaves the remainder by its scale, whether or
      not the scale is spoken. */
  lemma LeftStep(n: nat, i: nat)
    requires i < 4
    ensures LeftAt(n, i + 1) == LeftAt(n, i) % UnitAt(i)
    ensures LeftAt(n, i) < UnitAt(i) ==> LeftAt(n, i + 1) == LeftAt(n, i)
  {
    if i > 0 {
      UnitAtDescending(i - 1, i);
      ModMod(n, UnitAt(i - 1), UnitAt(i));
    }
  }

  /** The loop over the four scales as written, with a mutable
      remainder. It leaves `n % 1000` (so less than 1000) for the final
      group, and its groups followed by that final group are `Groups(n)`. */
  method SplitIntoGroups(n: nat) returns (groups: seq<Group>, remainder: nat)
    ensures remainder == n % 1000
    ensures groups + (if remainder > 0 then [Group(GroupWords(remainder), [])] else []) == Groups(n)
  {
    groups := [];
    remainder := n;
    var i := 0;
    while i < |Scales|
      invariant 0 <= i <= 4
      invariant remainder == LeftAt(n, i)
      invariant groups + GroupsFrom(remainder, i) == Groups(n)
    {
      var scale := Scales[i];
      assert scale.Value() == UnitAt(i);
      LeftStep(n, i);
      if remainder >= scale.Value() {
        var g := Group(GroupWords(remainder / scale.Value()), [scale]);
        assert GroupsFrom(remainder, i) == [g] + GroupsFrom(remainder % scale.Value(), i + 1);
        groups := groups + [g];
        remainder := remainder % scale.Value();
      }
      i := i + 1;
    }
  }

  /** The scale words of a group, each after a space. */
  function ScaleWords(ss: seq<Scale>): string
    decreases |ss|
  {
    if |ss| == 0 then "" else " " + ss[0].Word() + ScaleWords(ss[1..])
  }

  /** A group as the loop speaks it: the count's words, then a space and
      the scale word for each scale the group carries (none for the final
      remainder). */
  function GroupText(g: Group): string
  {
    WordsText(g.words) + ScaleWords(g.scales)
  }

  function GroupTexts(gs: seq<Group>): seq<string>
    decreases |gs|
  {
    if |gs| == 0 then [] else [GroupText(gs[0])] + GroupTexts(gs[1..])
  }

  /** One text per group, in order. */
  lemma {:induction false} GroupTextsAt(gs: seq<Group>)
    ensures |GroupTexts(gs)| == |gs|
    ensures forall k :: 0 <= k < |gs| ==> GroupTexts(gs)[k] == GroupText(gs[k])
    decreases |gs|
  {
    if |gs| > 0 {
      GroupTextsAt(gs[1..]);
    }
  }

  /** The group texts joined by the conjunction, then trimmed. */
  function GroupsText(gs: seq<Group>): string
  {
    Trim(Join(GroupTexts(gs), And))
  }

  lemma {:induction false} ScaleWordsEnd(ss: seq<Scale>)
    requires |ss| > 0
    ensures |ScaleWords(ss)| > 0 && ScaleWords(ss)[|ScaleWords(ss)| - 1] != ' '
    decreases |ss|
  {
    if |ss| > 1 {
      ScaleWordsEnd(ss[1..]);
    } else {
      assert ScaleWords(ss) == " " + ss[0].Word();
    }
  }

  lemma GroupTextUnpadded(g: Group)
    requires Speakable(g)
    ensures Unpadded(GroupText(g))
    ensures GroupText(g)[0] != ZeroWord[0]
  {
    WordsTextUnpadded(g.words);
    if |g.scales| > 0 {
      ScaleWordsEnd(g.scales);
    }
  }

  /** Speakable groups need no trimming: their joined text neither starts
      nor ends with a space, so the `trim()` leaves it as it is. */
  lemma GroupsTextUntrimmed(gs: seq<Group>)
    requires |gs| > 0
    requires forall k :: 0 <= k < |gs| ==> Speakable(gs[k])
    ensures Unpadded(GroupsText(gs))
    ensures GroupsText(gs) == Join(GroupTexts(gs), And)
    ensures GroupsText(gs) != ZeroWord
  {
    GroupTextUnpadded(gs[0]);
    GroupTextsAt(gs);
    var parts := GroupTexts(gs);
    forall k | 0 <= k < |parts|
      ensures Unpadded(parts[k])
    {
      GroupTextUnpadded(gs[k]);
    }
    JoinUnpadded(parts, And);
    TrimUnpadded(Join(parts, And));
  }
}

=== FILE: spoken.dfy ===
/** The branches of `numberToPersianWords` (script.js:102-165) as the text
    they speak. */
module Spoken {
  import opened Wrappers
  import opened Text
  import opened Numerals
  import opened Lexicon
  import opened ThreeDigits
  import opened Scales
  import opened NumberWords

  /** How each kind of reading is spelled, one constructor at a time. */
  lemma RenderNegative(m: Reading)
    ensures Render(Negative(m)) == NegativeWord + " " + Render(m)
  {
  }

  lemma RenderDecimal(w: Reading, ws: seq<string>)
    ensures Render(Decimal(w, ws)) == Render(w) + " " + PointWord + " " + Join(ws, " ")
  {
  }

  /** A leading minus sign is read as a negation of the rest of the text. */
  lemma NegativeReading(s: string)
    requires Modelled(s) && s != "NaN" && 'e' !in s && |s| > 0 && s[0] == '-'
    ensures Modelled(s[1..])
    ensures ReadText(s) == Negative(ReadText(s[1..]))
  {
  }

  /** A leading minus sign is spoken as the negative word, then the rest of
      the text as the function speaks it on its own. */
  lemma NegativeSpoken(s: string)
    requires Modelled(s) && s != "NaN" && 'e' !in s && |s| > 0 && s[0] == '-'
    ensures Modelled(s[1..])
    ensures NumberToWords(Str(s)) == NegativeWord + " " + NumberToWords(Str(s[1..]))
  {
    NegativeReading(s);
    RenderNegative(ReadText(s[1..]));
  }

  /** Zero is the single zero word and no other integer below 10^15 is;
      every other one is spoken as table words and scale words with no
      space at either end, so the closing `trim()` changes nothing. */
  lemma IntegerWordsShape(n: nat)
    requires n < Limit
    ensures IntegerWords(n) == ZeroWord <==> n == 0
    ensures n > 0 ==> Unpadded(IntegerWords(n))
    ensures n > 0 ==> IntegerWords(n) == Join(GroupTexts(Groups(n)), And)
  {
    if n > 0 {
      PositiveWords(n);
    }
  }

  lemma PositiveWords(n: nat)
    requires 0 < n < Limit
    ensures IntegerWords(n) != ZeroWord
    ensures Unpadded(IntegerWords(n))
    ensures IntegerWords(n) == Join(GroupTexts(Groups(n)), And)
  {
    var gs := CorrectedGroups(n);
    assert GroupsValue([]) == 0;
    assert IntegerWords(n) == GroupsText(gs);
    GroupsTextUntrimmed(gs);
    CorrectedBelowLimit(n);
  }

  /** Reading the text `String(n)` gives the integer reading of `n`: the
      recursive call on `parseInt(intPart)` reads the integer part as the
      number it denotes. */
  lemma IntegerTextReading(n: nat)
    requires n < Limit
    ensures Modelled(DecimalString(n))
    ensures ReadText(DecimalString(n)) == IntegerReading(n)
    ensures NumberToWords(Str(DecimalString(n))) == IntegerWords(n)
  {
    var t := DecimalString(n);
    DecimalStringValue(n);
    DigitsReading(t);
  }

  /** Past the earlier branches, a text with a point is read in two parts:
      the text before the first point through `parseInt`, and the text
      between the first and the second point character by character. */
  lemma DecimalReading(s: string)
    requires Modelled(s) && s != "NaN" && 'e' !in s && (|s| == 0 || s[0] != '-') && '.' in s
    ensures ParseIntModelled(FieldBefore(s, '.'))
    ensures ReadText(s) == Decimal(WholeReading(s), FractionWords(FieldAfter(s, '.')))
  {
  }

  /** A decimal point splits the text: the integer part is spoken as the
      function speaks the number `parseInt(intPart)` (the infinite word when
      that is `NaN`), then " ممیز ", then one key word per character of
      the fraction, joined by single spaces. */
  lemma DecimalSpoken(s: string)
    requires Modelled(s) && s != "NaN" && 'e' !in s && (|s| == 0 || s[0] != '-') && '.' in s
    ensures ParseIntModelled(FieldBefore(s, '.'))
    ensures NumberToWords(Str(s)) ==
      Render(WholeReading(s)) + " " + PointWord + " " + Join(FractionWords(FieldAfter(s, '.')), " ")
  {
    DecimalReading(s);
    RenderDecimal(WholeReading(s), FractionWords(FieldAfter(s, '.')));
  }

  /** The integer part of a decimal text is spoken as the function speaks
      the number `parseInt(intPart)`: the infinite word for `NaN` (a
      non-finite number), otherwise the integer's words. */
  lemma WholeSpoken(s: string)
    requires ParseIntModelled(FieldBefore(s, '.'))
    ensures ParseInt(FieldBefore(s, '.')).None? ==> Render(WholeReading(s)) == NumberToWords(NonFinite)
    ensures ParseInt(FieldBefore(s, '.')).Some? ==>
      Render(WholeReading(s)) == IntegerWords(ParseInt(FieldBefore(s, '.')).value)
  {
  }

  /** A non-empty digit string takes none of the earlier branches: it is
      not "NaN", holds no `e`, no minus sign and no point. */
  lemma DigitsOnly(s: string)
    requires |s| > 0 && AllDigits(s)
    ensures s != "NaN" && 'e' !in s && '.' !in s && s[0] != '-'
  {
  }

  /** `parseInt` reads all of a non-empty digit string. */
  lemma DigitsParsed(s: string)
    requires |s| > 0 && AllDigits(s)
    ensures FieldBefore(s, '.') == s
    ensures ParseIntModelled(s) && ParseInt(s) == Some(DigitsValue(s))
  {
    assert IsDigit(s[0]);
  }

  /** A digit text below 10^15 is read as the integer its digits denote,
      leading zeros and all. */
  lemma DigitsReading(s: string)
    requires |s| > 0 && AllDigits(s) && DigitsValue(s) < Limit
    ensures Modelled(s)
    ensures ReadText(s) == IntegerReading(DigitsValue(s))
  {
    DigitsOnly(s);
    DigitsParsed(s);
  }

  /** An all-digit text worth zero ("0", "000") is spoken as the single zero
      word. */
  lemma ZeroSpoken(s: string)
    requires |s| > 0 && AllDigits(s) && DigitsValue(s) == 0
    ensures Modelled(s)
    ensures NumberToWords(Str(s)) == ZeroWord
  {
    DigitsReading(s);
    SpokenReading(s, IntegerReading(DigitsValue(s)));
  }

  /** What is spoken for a text is the rendering of its reading. */
  lemma SpokenReading(s: string, r: Reading)
    requires Modelled(s) && ReadText(s) == r
    ensures NumberToWords(Str(s)) == Render(r)
  {
  }

  /** A text with a point but no digit before it: `parseInt("")` is `NaN`,
      a non-finite number, so the integer part is read as infinite. */
  lemma LeadingPointReadsInfinite(f: string)
    requires AllDigits(f)
    ensures Modelled("." + f)
    ensures NumberToWords(Str("." + f)) == InfiniteWord + " " + PointWord + " " + Join(FractionWords(f), " ")
  {
    var s := "." + f;
    assert s[0] == '.' && s[1..] == f;
    assert IndexOf(s, '.') == 0;
    assert FieldBefore(s, '.') == "";
    assert FieldAfter(s, '.') == f by {
      assert '.' !in f;
    }
    assert 'e' !in s by {
      assert forall k :: 0 <= k < |f| ==> IsDigit(f[k]);
    }
    assert s != "NaN";
    DecimalReading(s);
    RenderDecimal(Infinite, FractionWords(f));
  }
}

=== FILE: text.dfy ===
/** String helpers that mirror the JavaScript string and array operations the
    calculator uses: `Array.prototype.join`, `String.prototype.trim`,
    `indexOf` and `split` on a single character. */
module Text {

  /** `parts.join(sep)`: the parts in order with `sep` between neighbours.
      The text is as long as the parts together plus one separator between
      each two neighbours, and starts with the first part. */
  function Join(parts: seq<string>, sep: string): (r: string)
    ensures |r| == Lengths(parts) + (if |parts| == 0 then 0 else (|parts| - 1) * |sep|)
    ensures |parts| > 0 ==> parts[0] <= r
    decreases |parts|
  {
    if |parts| == 0 then ""
    else if |parts| == 1 then parts[0]
    else
      var rest := Join(parts[1..], sep);
      assert (|parts| - 1) * |sep| == |sep| + (|parts| - 2) * |sep|;
      parts[0] + sep + rest
  }

  /** Concatenation regroups freely; the solver needs the step named. */
  lemma Associative<T>(a: seq<T>, b: seq<T>, c: seq<T>)
    ensures a + (b + c) == a + b + c
  {
  }

  /** Joining a first part to at least one more puts the separator after
      it. */
  lemma JoinCons(w: string, rest: seq<string>, sep: string)
    requires |rest| > 0
    ensures Join([w] + rest, sep) == w + sep + Join(rest, sep)
  {
    assert ([w] + rest)[1..] == rest;
  }

  /** The total length of the parts. */
  function Lengths(parts: seq<string>): nat
    decreases |parts|
  {
    if |parts| == 0 then 0 else |parts[0]| + Lengths(parts[1..])
  }

  /** Position of the first `c` in `s`, or `|s|` when there is none. */
  function IndexOf(s: string, c: char): (i: nat)
    ensures i <= |s|
    ensures i < |s| ==> s[i] == c
    ensures forall j :: 0 <= j < i ==> s[j] != c
    ensures i == |s| <==> c !in s
    decreases |s|
  {
    if |s| == 0 then 0
    else if s[0] == c then 0
    else 1 + IndexOf(s[1..], c)
  }

  /** `s.split(c)[k]` for k = 0 and k = 1: the text before the first `c`, and
      the text between the first and the second `c` (or the end of `s`). */
  function FieldBefore(s: string, c: char): (r: string)
    ensures c !in r
    ensures r <= s
    ensures |r| == |s| || s[|r|] == c
  {
    s[..IndexOf(s, c)]
  }

  function FieldAfter(s: string, c: char): (r: string)
    requires c in s
    ensures c !in r
    ensures FieldBefore(s, c) + [c] + r <= s
    ensures var i := |FieldBefore(s, c)| + 1 + |r|; i == |s| || s[i] == c
  {
    var i := IndexOf(s, c);
    var rest := s[i + 1..];
    assert s == s[..i] + [c] + rest;
    FieldBefore(rest, c)
  }

  /** `s` without its leading spaces: a suffix of `s` that does not start
      with a space, and everything before it is a space. */
  function TrimStart(s: string): (r: string)
    ensures |r| <= |s| && r == s[|s| - |r|..]
    ensures |r| > 0 ==> r[0] != ' '
    ensures forall j :: 0 <= j < |s| - |r| ==> s[j] == ' '
    decreases |s|
  {
    if |s| > 0 && s[0] == ' ' then TrimStart(s[1..]) else s
  }

  /** `s` without its trailing spaces: a prefix of `s` that does not end
      with a space, and everything after it is a space. */
  function TrimEnd(s: string): (r: string)
    ensures r <= s
    ensures |r| > 0 ==> r[|r| - 1] != ' '
    ensures forall j :: |r| <= j < |s| ==> s[j] == ' '
    decreases |s|
  {
    if |s| > 0 && s[|s| - 1] == ' ' then TrimEnd(s[..|s| - 1]) else s
  }

  /** `s.trim()`, restricted to U+0020: the only white space that occurs in
      the words the calculator joins. The result is `s` without its
      leading spaces (`TrimStart`), cut before a tail of spaces only; it is
      empty or unpadded. */
  function Trim(s: string): (r: string)
    ensures |r| == 0 || Unpadded(r)
    ensures r <= TrimStart(s)
    ensures forall j :: |r| <= j < |TrimStart(s)| ==> TrimStart(s)[j] == ' '
  {
    var t := TrimStart(s);
    var r := TrimEnd(t);
    assert |r| > 0 ==> r[0] == t[0];
    r
  }

  /** A word that can stand between separators: non-empty, without spaces. */
  predicate Plain(w: string)
  {
    |w| > 0 && ' ' !in w
  }

  /** Text whose first and last characters are not spaces. */
  predicate Unpadded(s: string)
  {
    |s| > 0 && s[0] != ' ' && s[|s| - 1] != ' '
  }

  /** The first `c` in `a`, `c`, `rest` is the one after `a` when `a` has
      none. */
  lemma FirstAfter(a: string, c: char, rest: string)
    requires c !in a
    ensures IndexOf(a + [c] + rest, c) == |a|
  {
    var s := a + [c] + rest;
    assert s[|a|] == c;
    assert forall j :: 0 <= j < |a| ==> s[j] == a[j];
  }

  /** Splitting `a`, `c`, `b`, then text that is empty or starts with
      another `c`, on `c` gives `a` and `b` back as parts 0 and 1. */
  lemma SplitFields(a: string, b: string, t: string, c: char)
    requires c !in a && c !in b
    requires |t| == 0 || t[0] == c
    ensures c in a + [c] + b + t
    ensures FieldBefore(a + [c] + b + t, c) == a
    ensures FieldAfter(a + [c] + b + t, c) == b
  {
    var s := a + [c] + b + t;
    assert s == a + [c] + (b + t);
    FirstAfter(a, c, b + t);
    assert s[..|a|] == a;
    assert s[|a| + 1..] == b + t;
    if |t| == 0 {
      assert b + t == b;
    } else {
      assert b + t == b + [c] + t[1..];
      FirstAfter(b, c, t[1..]);
      assert (b + t)[..|b|] == b;
    }
  }

  lemma TrimUnpadded(s: string)
    requires Unpadded(s)
    ensures Trim(s) == s
  {
  }

  /** Joining unpadded parts with a separator yields unpadded text, whatever
      the separator: it starts as the first part does and ends as the last
      part does. */
  lemma {:induction false} JoinUnpadded(parts: seq<string>, sep: string)
    requires |parts| > 0
    requires forall i :: 0 <= i < |parts| ==> Unpadded(parts[i])
    ensures Unpadded(Join(parts, sep))
    ensures Unpadded(parts[0]) && Join(parts, sep)[0] == parts[0][0]
    decreases |parts|
  {
    if |parts| > 1 {
      JoinUnpadded(parts[1..], sep);
      var tail := Join(parts[1..], sep);
      var r := parts[0] + sep + tail;
      assert r[|r| - 1] == tail[|tail| - 1];
    }
  }

  /** `s.split(c)`: the pieces of `s` between the occurrences of `c`. There
      is always at least one piece. */
  function SplitOn(s: string, c: char): (r: seq<string>)
    ensures |r| > 0
    ensures forall k :: 0 <= k < |r| ==> c !in r[k]
    decreases |s|
  {
    if c !in s then [s]
    else [FieldBefore(s, c)] + SplitOn(s[IndexOf(s, c) + 1..], c)
  }

  /** Splitting on a character undoes joining by it, when no part holds
      that character. */
  lemma {:induction false} SplitJoin(parts: seq<string>, c: char)
    requires |parts| > 0
    requires forall k :: 0 <= k < |parts| ==> c !in parts[k]
    ensures SplitOn(Join(parts, [c]), c) == parts
    decreases |parts|
  {
    if |parts| > 1 {
      var p, rest := parts[0], Join(parts[1..], [c]);
      assert Join(parts, [c]) == p + [c] + rest;
      SplitStep(p, c, rest);
      SplitJoin(parts[1..], c);
      HeadTail(parts);
    }
  }

  lemma HeadTail<T>(s: seq<T>)
    requires |s| > 0
    ensures [s[0]] + s[1..] == s
  {
  }

  /** The first piece ends at the first `c`; the rest is split on. */
  lemma SplitStep(p: string, c: char, rest: string)
    requires c !in p
    ensures SplitOn(p + [c] + rest, c) == [p] + SplitOn(rest, c)
  {
    var s := p + [c] + rest;
    FirstAfter(p, c, rest);
    assert s[|p|] == c;
    assert s[..|p|] == p;
    assert s[|p| + 1..] == rest;
  }

  /** Joining two non-empty lists of parts puts one separator between
      them. */
  lemma {:induction false} JoinAppend(a: seq<string>, b: seq<string>, sep: string)
    requires |a| > 0 && |b| > 0
    ensures Join(a + b, sep) == Join(a, sep) + sep + Join(b, sep)
    decreases |a|
  {
    assert a + b == [a[0]] + (a[1..] + b);
    JoinCons(a[0], a[1..] + b, sep);
    if |a| > 1 {
      var ja, jb := Join(a[1..], sep), Join(b, sep);
      JoinAppend(a[1..], b, sep);
      JoinCons(a[0], a[1..], sep);
      assert a == [a[0]] + a[1..];
      Associative(a[0] + sep, ja + sep, jb);
      Associative(a[0] + sep, ja, sep);
    } else {
      assert a == [a[0]];
    }
  }

  /** The parts with the word `w` between each two neighbours. */
  function Interleave(parts: seq<string>, w: string): (r: seq<string>)
    ensures |parts| > 0 ==> |r| > 0 && r[0] == parts[0]
    ensures forall k :: 0 <= k < |r| ==> r[k] == w || r[k] in parts
    decreases |parts|
  {
    if |parts| <= 1 then parts else [parts[0], w] + Interleave(parts[1..], w)
  }

  /** Joining by a word with a space on each side is joining the parts and
      that word, interleaved, by single spaces. */
  lemma {:induction false} JoinInterleave(parts: seq<string>, w: string)
    requires |parts| > 0
    ensures Join(parts, " " + w + " ") == Join(Interleave(parts, w), " ")
    decreases |parts|
  {
    if |parts| > 1 {
      JoinInterleave(parts[1..], w);
      InterleaveStep(parts, w);
    }
  }

  lemma InterleaveStep(parts: seq<string>, w: string)
    requires |parts| > 1
    requires Join(parts[1..], " " + w + " ") == Join(Interleave(parts[1..], w), " ")
    ensures Join(parts, " " + w + " ") == Join(Interleave(parts, w), " ")
  {
    InterleaveHead(parts, w);
    Regroup(parts[0], w, Join(Interleave(parts[1..], w), " "));
  }

  lemma InterleaveHead(parts: seq<string>, w: string)
    requires |parts| > 1
    ensures Join(Interleave(parts, w), " ") ==
      parts[0] + " " + (w + " " + Join(Interleave(parts[1..], w), " "))
  {
    var p, rest := parts[0], Interleave(parts[1..], w);
    assert Interleave(parts, w) == [p] + ([w] + rest);
    JoinCons(p, [w] + rest, " ");
    JoinCons(w, rest, " ");
  }

  lemma Regroup(p: string, w: string, j: string)
    ensures p + (" " + w + " ") + j == p + " " + (w + " " + j)
  {
    Associative(p + " ", w + " ", j);
    Associative(p, " " + w, " ");
    Associative(p, " ", w);
    Associative(p + " ", w, " ");
  }

  /** Two joined runs of words with a word between them, spaced on both
      sides, are the runs and the word joined as one. */
  lemma JoinAround(head: seq<string>, tail: seq<string>, w: string)
    requires |head| > 0 && |tail| > 0
    ensures Join(head + ([w] + tail), " ") == Join(head, " ") + (" " + w + " ") + Join(tail, " ")
  {
    JoinAppend(head, [w] + tail, " ");
    JoinCons(w, tail, " ");
    Regroup(Join(head, " "), w, Join(tail, " "));
  }

  /** Words without spaces, joined by single spaces, are cut back into
      the same words. */
  lemma SplitSpaces(parts: seq<string>)
    requires |parts| > 0
    requires forall k :: 0 <= k < |parts| ==> Plain(parts[k])
    ensures SplitOn(Join(parts, " "), ' ') == parts
  {
    assert " " == [' '];
    SplitJoin(parts, ' ');
  }
}

=== FILE: three_digits.dfy ===
/** `threeDigitsToWords` (script.js:136-150): the words of one group of
    up to three digits, as a list of word tokens and as the text they spell. */
module ThreeDigits {
  import opened Text
  import opened Lexicon

  /** One spoken word of a group, with the table index it is looked up by. */
  datatype Word =
    | Hundreds(digit: nat)  // 100 * digit, from the hundreds table
    | Teen(digit: nat)      // 10 + digit, from the teens table
    | Tens(digit: nat)      // 10 * digit, from the tens table
    | Ones(digit: nat)      // digit, from the ones table
  {
    /** The number a listener hears in the word. */
    function Value(): nat
    {
      match this
      case Hundreds(d) => 100 * d
      case Teen(d) => 10 + d
      case Tens(d) => 10 * d
      case Ones(d) => d
    }

    /** The index names a spoken entry of its table. */
    predicate InTable()
    {
      match this
      case Hundreds(d) => 1 <= d < 10
      case Teen(d) => d < 10
      case Tens(d) => 1 <= d < 10
      case Ones(d) => 1 <= d < 10
    }
  }

  /** The table entry a word reads; "" past the end of a table. */
  function Spell(w: Word): string
  {
    match w
    case Hundreds(d) => HundredsWord(d)
    case Teen(d) => TeenWord(d)
    case Tens(d) => TensWord(d)
    case Ones(d) => OnesWord(d)
  }

  function WordsValue(ws: seq<Word>): nat
    decreases |ws|
  {
    if |ws| == 0 then 0 else ws[0].Value() + WordsValue(ws[1..])
  }

  lemma {:induction false} WordsValueAppend(a: seq<Word>, b: seq<Word>)
    ensures WordsValue(a + b) == WordsValue(a) + WordsValue(b)
    decreases |a|
  {
    if |a| == 0 {
      assert a + b == b;
    } else {
      assert (a + b)[0] == a[0];
      assert (a + b)[1..] == a[1..] + b;
      WordsValueAppend(a[1..], b);
    }
  }

  /** The words of `x`: a hundreds word when the hundreds digit is non-zero;
      then a teens word when the last two digits are 10-19, otherwise a tens
      word and a ones word for each of those digits that is non-zero. The
      function is total, as the source is: for `x >= 1000` the hundreds
      index runs past its table. The words are in strictly descending value
      and add up to `x`. */
  function GroupWords(x: nat): (ws: seq<Word>)
    ensures WordsValue(ws) == x
    ensures |ws| == 0 <==> x == 0
    ensures x < 1000 ==> forall i :: 0 <= i < |ws| ==> ws[i].InTable()
    ensures forall i, j :: 0 <= i < j < |ws| ==> ws[i].Value() > ws[j].Value()
  {
    var h := x / 100;
    var rem := x % 100;
    var head := if h != 0 then [Hundreds(h)] else [];
    var tens := if rem / 10 != 0 then [Tens(rem / 10)] else [];
    var ones := if rem % 10 != 0 then [Ones(rem % 10)] else [];
    var tail := if 10 <= rem < 20 then [Teen(rem - 10)] else tens + ones;
    WordsValueAppend(tens, ones);
    WordsValueAppend(head, tail);
    head + tail
  }

  /** The word takes its table index from its own digit of `x`: the
      hundreds digit, the last two digits less ten, the tens digit or the
      ones digit. */
  predicate FromOwnDigit(w: Word, x: nat)
  {
    match w
    case Hundreds(d) => d == x / 100
    case Teen(d) => d == x % 100 - 10
    case Tens(d) => d == x % 100 / 10
    case Ones(d) => d == x % 10
  }

  /** Each table is indexed by its own digit, as `threeDigitsToWords`
      indexes `hundreds[h]`, `teens[rem - 10]`, `tens[t]` and `ones[o]`. */
  lemma GroupWordsDigits(x: nat)
    ensures forall i :: 0 <= i < |GroupWords(x)| ==> FromOwnDigit(GroupWords(x)[i], x)
  {
    var h, rem := x / 100, x % 100;
    LastDigit(x);
    var head := if h != 0 then [Hundreds(h)] else [];
    var tens := if rem / 10 != 0 then [Tens(rem / 10)] else [];
    var ones := if rem % 10 != 0 then [Ones(rem % 10)] else [];
    var tail := if 10 <= rem < 20 then [Teen(rem - 10)] else tens + ones;
    assert GroupWords(x) == head + tail;
    assert forall i :: 0 <= i < |head| ==> FromOwnDigit(head[i], x);
    assert forall i :: 0 <= i < |tail| ==> FromOwnDigit(tail[i], x);
  }

  /** The ones digit of the last two digits is the ones digit. */
  lemma LastDigit(x: nat)
    ensures x % 100 % 10 == x % 10
  {
    assert x == 100 * (x / 100) + x % 100;
    assert x % 100 == 10 * (x % 100 / 10) + x % 100 % 10;
    assert x == 10 * (10 * (x / 100) + x % 100 / 10) + x % 100 % 10;
  }

  predicate HasHundreds(ws: seq<Word>) { exists i :: 0 <= i < |ws| && ws[i].Hundreds? }
  predicate HasTens(ws: seq<Word>) { exists i :: 0 <= i < |ws| && ws[i].Tens? }
  predicate HasOnes(ws: seq<Word>) { exists i :: 0 <= i < |ws| && ws[i].Ones? }

  function TeenCount(ws: seq<Word>): nat
    decreases |ws|
  {
    if |ws| == 0 then 0 else (if ws[0].Teen? then 1 else 0) + TeenCount(ws[1..])
  }

  /** A group speaks a hundreds word exactly when `x >= 100`. */
  lemma GroupHundreds(x: nat)
    ensures HasHundreds(GroupWords(x)) <==> x >= 100
  {
    var ws := GroupWords(x);
    if x >= 100 {
      assert ws[0].Hundreds?;
    }
  }

  /** Last two digits 10-19 are spoken as exactly one teens word, never as a
      tens word and a ones word. */
  lemma GroupTeens(x: nat)
    requires 10 <= x % 100 < 20
    ensures TeenCount(GroupWords(x)) == 1
    ensures !HasTens(GroupWords(x)) && !HasOnes(GroupWords(x))
  {
    var ws := GroupWords(x);
    var h := x / 100;
    var teen := Teen(x % 100 - 10);
    if h != 0 {
      assert ws == [Hundreds(h), teen];
      assert ws[1..] == [teen];
      assert TeenCount(ws[1..]) == 1;
    } else {
      assert ws == [teen];
    }
  }

  /** Outside 10-19 there is no teens word; the tens word is spoken exactly
      when the tens digit is non-zero, the ones word exactly when the ones
      digit is non-zero. */
  lemma GroupTensOnes(x: nat)
    requires !(10 <= x % 100 < 20)
    ensures TeenCount(GroupWords(x)) == 0
    ensures HasTens(GroupWords(x)) <==> x % 100 / 10 != 0
    ensures HasOnes(GroupWords(x)) <==> x % 10 != 0
  {
    var ws := GroupWords(x);
    var k := if x / 100 != 0 then 1 else 0;
    var t := x % 100 / 10;
    var o := x % 10;
    if t != 0 {
      assert ws[k].Tens?;
    }
    if o != 0 {
      assert ws[|ws| - 1].Ones?;
    }
    TeenCountNone(ws);
  }

  lemma {:induction false} TeenCountNone(ws: seq<Word>)
    requires forall i :: 0 <= i < |ws| ==> !ws[i].Teen?
    ensures TeenCount(ws) == 0
    decreases |ws|
  {
    if |ws| > 0 {
      TeenCountNone(ws[1..]);
    }
  }

  function SpellAll(ws: seq<Word>): (r: seq<string>)
    ensures |r| == |ws|
    ensures forall i :: 0 <= i < |ws| ==> r[i] == Spell(ws[i])
    decreases |ws|
  {
    if |ws| == 0 then [] else [Spell(ws[0])] + SpellAll(ws[1..])
  }

  /** Words joined by the conjunction " و ". */
  function WordsText(ws: seq<Word>): string
  {
    Join(SpellAll(ws), And)
  }

  /** A table word is spelled as a plain word. */
  lemma SpellInTable(w: Word)
    requires w.InTable()
    ensures Plain(Spell(w))
  {
    NumberTablesPlain();
  }

  /** No table word of the number tables starts with the first letter of
      the zero word. */
  lemma SpellNotZeroInitial(w: Word)
    requires w.InTable()
    ensures |Spell(w)| > 0 && Spell(w)[0] != ZeroWord[0]
  {
  }

  /** Table words joined by the conjunction give non-empty text that
      neither starts nor ends with a space. */
  lemma WordsTextUnpadded(ws: seq<Word>)
    requires |ws| > 0
    requires forall i :: 0 <= i < |ws| ==> ws[i].InTable()
    ensures Unpadded(WordsText(ws))
    ensures WordsText(ws)[0] != ZeroWord[0]
  {
    SpellNotZeroInitial(ws[0]);
    var parts := SpellAll(ws);
    forall i | 0 <= i < |parts|
      ensures Unpadded(parts[i])
    {
      SpellInTable(ws[i]);
    }
    JoinUnpadded(parts, And);
  }

  /** `threeDigitsToWords(x)`: for 1 <= x <= 999 the text is non-empty and
      neither starts nor ends with a space; for 0 it is empty. */
  function ThreeDigitsText(x: nat): (t: string)
    ensures 1 <= x < 1000 ==> Unpadded(t)
    ensures x == 0 ==> t == ""
  {
    var ws := GroupWords(x);
    assert 1 <= x < 1000 ==> Unpadded(WordsText(ws)) by {
      if 1 <= x < 1000 {
        WordsTextUnpadded(ws);
      }
    }
    WordsText(ws)
  }
}

=== FILE: trillions.dfy ===
/** The scale loop on numbers of a thousand trillions and more. */
module Trillions {
  import opened Text
  import opened Lexicon
  import opened ThreeDigits
  import opened Scales
  import opened NumberWords

  /** As written, 10^15 and 2 * 10^15 are both spoken as the bare word
      "تریلیون": the trillion counts 1000 and 2000 index the hundreds table
      at 10 and 20, which read `undefined` and are joined as "". */
  lemma TrillionCountOverflow()
    ensures AsWrittenIntegerWords(Limit) == "تریلیون"
    ensures AsWrittenIntegerWords(2 * Limit) == AsWrittenIntegerWords(Limit)
  {
    OverflowGroups(1);
    OverflowGroups(2);
    OverflowText(1);
    OverflowText(2);
    assert 1 * Limit == Limit;
  }

  /** As written, `k` thousand trillions is one trillion group whose count
      is the hundreds entry `10 * k`. */
  lemma OverflowGroups(k: nat)
    requires k == 1 || k == 2
    ensures Groups(k * Limit) == [Group([Hundreds(10 * k)], [Trillion])]
  {
    var n := k * Limit;
    assert n / Trillion.Value() == 1000 * k && n % Trillion.Value() == 0;
    assert GroupWords(1000 * k) == [Hundreds(10 * k)] by {
      assert (1000 * k) / 100 == 10 * k && (1000 * k) % 100 == 0;
    }
    assert GroupsFrom(0, 1) == [];
  }

  /** An entry past the end of the hundreds table reads as "", so the group
      is spoken as its scale word alone. */
  lemma OverflowText(k: nat)
    requires k == 1 || k == 2
    ensures AsWrittenIntegerWords(k * Limit) == "تریلیون"
  {
    OverflowGroups(k);
    var g := Group([Hundreds(10 * k)], [Trillion]);
    assert GroupText(g) == " " + Trillion.Word() by {
      assert SpellAll([Hundreds(10 * k)]) == [""];
      assert WordsText([Hundreds(10 * k)]) == "";
      assert ScaleWords([Trillion]) == " " + Trillion.Word();
    }
    assert GroupsText([g]) == Trim(" " + Trillion.Word()) by {
      GroupTextsAt([g]);
      assert Join([GroupText(g)], And) == GroupText(g);
    }
    TrillionTrimmed();
  }

  lemma TrillionTrimmed()
    ensures Trim(" " + Trillion.Word()) == "تریلیون"
  {
    assert TrimStart(" تریلیون") == "تریلیون";
  }

  /** A single digit of thousands is one group: the digit, then the
      thousand word. */
  lemma ThousandsGroup(d: nat)
    requires 1 <= d <= 9
    ensures Groups(1000 * d) == [Group([Ones(d)], [Thousand])]
  {
    var n := 1000 * d;
    assert GroupsFrom(n, 3) == [Group([Ones(d)], [Thousand])] by {
      assert n / 1000 == d && n % 1000 == 0;
      OneDigitWords(d);
      assert GroupsFrom(0, 4) == [];
    }
    assert GroupsFrom(n, 2) == GroupsFrom(n, 3);
    assert GroupsFrom(n, 1) == GroupsFrom(n, 2);
    assert GroupsFrom(n, 0) == GroupsFrom(n, 1);
  }

  lemma OneDigitWords(d: nat)
    requires 1 <= d <= 9
    ensures GroupWords(d) == [Ones(d)]
  {
    assert d / 100 == 0 && d % 100 == d && d / 10 == 0 && d % 10 == d;
  }

  /** Corrected, a thousand trillions and its multiples up to nine are one
      group counted in thousands of trillions. */
  lemma CorrectedThousandTrillions(d: nat)
    requires 1 <= d <= 9
    ensures CorrectedGroups(d * Limit) == [Group([Ones(d)], [Thousand, Trillion])]
  {
    ThousandsGroup(d);
    assert GroupsFrom(0, 1) == [];
    assert d * Limit / Trillion.Value() == 1000 * d && d * Limit % Trillion.Value() == 0;
    assert CorrectedGroups(1000 * d) == Groups(1000 * d);
    assert [Thousand] + [Trillion] == [Thousand, Trillion];
    assert Lift([Group([Ones(d)], [Thousand])], Trillion) == [Group([Ones(d)], [Thousand, Trillion])];
  }

  /** The corrected words for `d` thousand trillions: the digit word, the
      thousand word, the trillion word. */
  lemma CorrectedThousandTrillionWords(d: nat)
    requires 1 <= d <= 9
    ensures IntegerWords(d * Limit) == OnesWord(d) + " " + Thousand.Word() + " " + Trillion.Word()
  {
    CorrectedThousandTrillions(d);
    var g := Group([Ones(d)], [Thousand, Trillion]);
    assert GroupsText([g]) == Join(GroupTexts([g]), And) by {
      GroupsTextUntrimmed([g]);
    }
    assert GroupTexts([g]) == [GroupText(g)];
    assert WordsText([Ones(d)]) == OnesWord(d) by {
      assert SpellAll([Ones(d)]) == [Spell(Ones(d))];
    }
    assert ScaleWords([Trillion]) == " " + Trillion.Word();
    assert ScaleWords([Thousand, Trillion]) == " " + Thousand.Word() + ScaleWords([Trillion]) by {
      assert [Thousand, Trillion][1..] == [Trillion];
    }
  }

  /** With the trillion count spoken in groups of its own, the two numbers
      are told apart. */
  lemma CorrectedTrillionCount()
    ensures IntegerWords(Limit) == "یک هزار تریلیون"
    ensures IntegerWords(2 * Limit) == "دو هزار تریلیون"
  {
    CorrectedThousandTrillionWords(1);
    CorrectedThousandTrillionWords(2);
    assert 1 * Limit == Limit;
    ThousandTrillionsSpelled();
  }

  lemma ThousandTrillionsSpelled()
    ensures OnesWord(1) + " " + Thousand.Word() + " " + Trillion.Word() == "یک هزار تریلیون"
    ensures OnesWord(2) + " " + Thousand.Word() + " " + Trillion.Word() == "دو هزار تریلیون"
  {
  }
}

=== FILE: wrappers.dfy ===
/** A small optional-value datatype, used where the calculator's JavaScript
    produces `NaN` or `undefined` instead of a value. */
module Wrappers {

  datatype Option<+T> = None | Some(value: T)

}
